=== FILE: README.md ===
# kilo editing core in Dafny

A functional model of the editing core of `kilo.cpp`, a small terminal text
editor, with proofs of its properties. The global editor state `E` becomes an
immutable `Editor` record. Every editor routine becomes a pure function from
one state to the next. The terminal and the file system stay outside the
model: the key decoder reads a finite byte sequence, and the serialiser
produces a byte sequence.

Modules, in the order of the source (`Bytes` holds the shared definitions):

- `Bytes`: bytes, `CTRL_KEY`, and a small `Option` type.
- `Terminal`: the key decoder `editorReadKey`, over the bytes the terminal
  will deliver.
- `Rows`: a row (`erow`) with tab rendering (`editorUpdateRow`) and the
  translation between raw and rendered columns. Also the row-level edits.
- `Editing`: the editor state and the editor operations: insert or delete a
  row, insert or delete a character at the cursor, split a line.
- `FileIo`: the serialiser `editorRowsToString`. Its partner is the line
  reader of `editorOpen` (`getline` plus end-of-line trimming).
- `Find`: incremental search. `editorFindCallback` has its static variables
  as an explicit `SearchState`. The prompt loop drives it, and `editorFind`
  settles the cursor afterwards.
- `Input`: `editorMoveCursor`, the buffer-edit step of `editorPrompt`, and
  the key dispatch of `editorProcessKeypress`, including the Ctrl-Q
  confirmation counter.
- `Output`: `editorScroll` and the row drawing of `editorDrawRows`.
- `Session`: the main loop (`editorRefreshScreen` then
  `editorProcessKeypress`) as a fold over keys, with worked examples of
  single key presses and of the Ctrl-Q countdown.

A row stores only its raw bytes. Its render buffer is the derived member
`render()`, so `render` can never fall out of step with `chars`.

`rsize == size` does not imply that the row has no tab. A tab that starts
at a rendered column congruent to 7 modulo 8 expands to a single space. So
a row of seven non-tab bytes followed by a tab has `rsize == size`:

- `Rows.RenderLength` and `Rows.CxToRxEqualsCx` state the exact condition.
- `Rows.TabAtLastColumnBeforeStop` exhibits the row.

## Model

| member | source | states |
|---|---|---|
| Bytes.CtrlKey | kilo.cpp:17 | the byte for Ctrl plus k is below 32 and agrees with k in its low five bits |
| Input.ControlBytes | kilo.cpp:17 | the command bytes Ctrl-F, H, L, Q, S are the CTRL_KEY values of their letters |
| Rows.NextCol | kilo.cpp:248-250 | a plain byte advances the rendered column by one; a tab advances it by 1 to 8 columns onto a multiple of 8 |
| Rows.TabAdvancesToNextStop | kilo.cpp:248-250 | a tab moves the rendered column forward by 1 to 8 onto a multiple of 8, and never past a later tab stop |
| Rows.CxToRx | kilo.cpp:242-253 | a rendered column is never left of its raw column |
| Rows.CxToRxTake | kilo.cpp:242-253 | the rendered column of cx depends only on the bytes before cx |
| Rows.CxToRxIncreasing | kilo.cpp:242-253 | distinct raw columns map to strictly increasing rendered columns |
| Rows.CxToRxMonotone | kilo.cpp:242-253 | the raw-to-rendered translation is monotone |
| Rows.CxToRxEqualsCx | kilo.cpp:242-253 | the rendered column equals the raw column exactly when every tab before it starts at a rendered column that is 7 modulo 8 |
| Rows.RxToCxFrom | kilo.cpp:255-268 | the scan returns a column whose cells all start at or before rx, and rx lies before the end of the returned cell |
| Rows.RxToCx | kilo.cpp:255-268 | the raw column returned is within the row; every column up to it renders at or before rx; and rx falls before the end of its cell |
| Rows.RxToCxInverse | kilo.cpp:242-268 | translating a raw column to a rendered one and back gives the raw column |
| Rows.RxToCxCell | kilo.cpp:255-268 | a rendered column inside the render lies in the cell of the raw column RxToCx returns |
| Rows.PadToStop | kilo.cpp:289-291 | the padding loop writes only spaces, up to the next multiple of 8, and none when already there |
| Rows.Expand | kilo.cpp:283-296 | one raw byte fills exactly its cell: copies of the byte, or spaces for a tab |
| Rows.Render | kilo.cpp:270-301 | rsize is CxToRx of the row size |
| Rows.RenderCell | kilo.cpp:270-301 | every rendered cell of raw column j shows that byte, or a space for a tab |
| Rows.RenderSnoc | kilo.cpp:283-296 | the render of a row is that of its prefix followed by the expansion of its last byte |
| Rows.RenderKeepsPrefix | kilo.cpp:283-296 | appending a byte keeps every existing rendered cell |
| Rows.RenderLastCell | kilo.cpp:283-296 | the cells of the last byte hold that byte, or spaces for a tab |
| Rows.RenderHasNoTab | kilo.cpp:283-296 | a render buffer never holds a tab byte |
| Rows.RenderLength | kilo.cpp:270-301 | rsize is at least size, with equality exactly when every tab renders as one space |
| Rows.RenderWithoutTabs | kilo.cpp:270-301 | a row without tabs renders as itself |
| Rows.TabAtLastColumnBeforeStop | kilo.cpp:270-301 | seven non-tab bytes and a tab render with rsize equal to size, although the row holds a tab |
| Rows.RenderPrefix | kilo.cpp:270-301 | appending bytes leaves the render of the existing bytes as a prefix |
| Rows.InsertPos | kilo.cpp:305-307 | an out-of-range insertion column becomes the end of the row, and an in-range one is kept |
| Rows.RowInsertChar | kilo.cpp:303-317 | the row grows by one byte, placed at `at` with the rest shifted right, or appended when `at` is out of range |
| Rows.RowDelChar | kilo.cpp:340-349 | an out-of-range column leaves the row unchanged; otherwise exactly that byte is removed |
| Rows.InsertThenDeleteChar | kilo.cpp:303-349 | inserting a byte at an in-range column and deleting at that column restores the row |
| Rows.RowAppendString | kilo.cpp:368-376 | the row is the old bytes followed by s, and its old render is a prefix of the new one |
| Terminal.ReadKey | kilo.cpp:108-188 | a non-ESC byte is returned as itself; an ESC yields a recognised sequence's key or a bare ESC; an ESC followed by at least two bytes consumes exactly 3 of them, or 4 after `ESC [ digit` when a fourth byte exists; an ESC with fewer than two bytes after it is a bare ESC that consumes the rest |
| Terminal.BracketLetter | kilo.cpp:154-168 | the letter after ESC [ names a key exactly when ESC [ letter is a recognised sequence, and it is that sequence's key |
| Terminal.TildeDigit | kilo.cpp:131-150 | the digit of ESC [ digit ~ names a key exactly when that sequence is recognised, and it is the sequence's key |
| Terminal.OLetter | kilo.cpp:171-179 | the letter after ESC O names a key exactly when ESC O letter is recognised, and it is the sequence's key |
| Terminal.EscapeSequenceDecodes | kilo.cpp:117-183 | every recognised escape sequence decodes to its key and consumes exactly its bytes, whatever follows |
| Terminal.UnrecognisedIsBareEsc | kilo.cpp:117-183 | input starting with ESC and no recognised sequence decodes to ESC |
| Terminal.ReadKeyEncode | kilo.cpp:108-188 | decoding a key's canonical bytes gives the key back, consuming exactly those bytes (a lone ESC only at the end of the input) |
| Terminal.EscSwallowsFollowingBytes | kilo.cpp:117-183 | an ESC followed by two bytes not starting a sequence consumes all three |
| Editing.InsertRow | kilo.cpp:320-338 | an out-of-range index is a no-op; otherwise the row is inserted there, the others shift, and dirty goes up by one |
| Editing.DelRow | kilo.cpp:357-366 | an out-of-range index is a no-op; otherwise exactly that row is removed and dirty goes up by one |
| Editing.InsertThenDeleteRow | kilo.cpp:320-366 | inserting a row and deleting it at the same index restores the rows |
| Editing.InsertChar | kilo.cpp:379-387 | the byte goes into the cursor row at cx (after appending an empty row when past the last row); the cursor advances; other rows are unchanged; the cursor stays valid |
| Editing.DelChar | kilo.cpp:389-409 | a no-op past the last row and at the document start; otherwise deletes left of the cursor, or at column 0 joins the row onto the previous one with the cursor at the join |
| Editing.InsertNewline | kilo.cpp:411-430 | the cursor row splits at cx (or an empty row goes above it at column 0); the cursor moves to the start of the next row; other rows are unchanged |
| Editing.NewlineThenBackspace | kilo.cpp:389-430 | Enter then Backspace on a row restores the rows and the cursor |
| Editing.TypeThenBackspace | kilo.cpp:379-409 | typing a byte then Backspace on a row restores the rows and the cursor |
| Editing.NewlineAtEndIsNotUndone | kilo.cpp:389-430 | past the last row, Enter adds an empty row that Backspace then leaves in place |
| FileIo.RowsToString | kilo.cpp:433-450 | the reported length is the buffer length and the sum of size + 1 over the rows; each row's bytes sit at its offset, followed by a newline |
| FileIo.BufLen | kilo.cpp:436-439 | the sum of size + 1 over the rows is the length of the rows joined with a newline after each, and at least the row count |
| FileIo.JoinLayout | kilo.cpp:443-447 | row i of the buffer starts after the bytes and newlines of the rows before it |
| FileIo.CString | kilo.cpp:446 | the C string of a row is the prefix before its first NUL, and the whole row when there is none |
| FileIo.JoinCStrings | kilo.cpp:443-447 | the bytes the second loop copies never exceed buflen, and fall strictly short of it once any row holds a NUL |
| FileIo.RowsToStringAsWritten | kilo.cpp:433-450 | the reported length counts every byte of every row plus a newline each |
| FileIo.AsWrittenAgreesWithoutNul | kilo.cpp:433-450 | on rows without NUL bytes the code as written produces the intended buffer |
| FileIo.NulRowOvershootsBuffer | kilo.cpp:433-450 | a row "a", NUL, "b" gives buflen 4 but a 2-byte buffer |
| FileIo.LineEnd | kilo.cpp:561 | getline consumes up to and including the first newline, or the rest of the input |
| FileIo.TrimEol | kilo.cpp:563-564 | the trimmed line is a prefix ending in neither newline nor CR, and only newlines and CRs were cut |
| FileIo.ReadLines | kilo.cpp:561-566 | the loader makes at most one row per byte, and every row it makes holds no newline and does not end in CR, so it survives a save and reload |
| FileIo.TrimEolStorable | kilo.cpp:563-564 | a row with no newline and no trailing CR, plus a newline, trims back to the row |
| FileIo.ReadLinesRowsToString | kilo.cpp:433-450 | reading the serialised rows back line by line gives the rows' bytes, for rows that hold no newline and do not end in CR |
| FileIo.ReadLinesJoin | kilo.cpp:561-566 | the line reader splits the joined rows back into the rows |
| FileIo.ReadLinesCons | kilo.cpp:561-566 | a row with its newline reads back as one line, then the rest |
| FileIo.LineEndAfter | kilo.cpp:561 | getline on a newline-free row plus a newline stops right after that newline |
| FileIo.NewlineInRowSplitsOnReload | kilo.cpp:433-450 | a row holding a newline byte comes back from a save and reload as two rows |
| Output.Scroll | kilo.cpp:759-775 | only rx and the offsets change; rx is the cursor's rendered column; the cursor ends inside the window; offsets already showing it are kept; scrolling puts the cursor on the window edge it crossed |
| Output.ScrollIdempotent | kilo.cpp:759-775 | scrolling twice is scrolling once |
| Output.ScrollCursorOnRenderedRow | kilo.cpp:759-775 | after scrolling, rx is within the rendered row, and strictly inside it when cx is inside the row |
| Output.Welcome | kilo.cpp:784-800 | the banner is cut to the screen width, centred by half the spare width, led by "~" and spaces |
| Output.CursorRx | kilo.cpp:761-764 | the cursor's rendered column is 0 past the last row; on a row it is at least cx and within the render, and strictly inside it when cx is inside the row |
| Output.DrawLine | kilo.cpp:779-812 | a text row shows the render from coloff, clipped to the screen width; a line past the last row is "~", or the banner a third of the way down an empty document |
| Output.FrameLength | kilo.cpp:779-822 | lines that each fit in w bytes with their line end make a frame of at most one w per line |
| Output.FrameLayout | kilo.cpp:779-822 | each line of a frame sits right after the lines above it and is followed by the clear-to-end-of-line and line break |
| Output.DrawRows | kilo.cpp:777-823 | the frame's rows take at most screenrows times (screencols + line end) bytes |
| Output.DrawRowsLayout | kilo.cpp:777-823 | screen line y of the frame is DrawLine of y followed by the line end, after the lines above it; the frame ends with the last screen line's line end, so nothing follows the screenrows lines |
| Output.FrameSnoc | kilo.cpp:779-822 | a frame ends right after the line end of its last line |
| Input.ClampCx | kilo.cpp:617-622 | only cx changes, and it ends at most the row length; a cx within the row is kept |
| Input.MoveCursor | kilo.cpp:574-623 | each arrow moves as the switch says (Left and Right wrapping across line ends, Left at (0,0) a no-op), then cx is clamped to the new row; the cursor invariant is kept |
| Input.Moved | kilo.cpp:579-615 | the switch moves one step per arrow and leaves every other key alone |
| Input.LeftUndoesRight | kilo.cpp:574-623 | Right then Left returns to the same position on any row |
| Input.RightUndoesLeft | kilo.cpp:574-623 | Left then Right returns to the same position anywhere but the document start |
| Input.RightAdvancesInReadingOrder | kilo.cpp:574-623 | Right moves to the next position in reading order |
| Input.PromptStep | kilo.cpp:725-751 | ESC cancels; Enter confirms exactly when the buffer is non-empty; erase keys drop the last byte; printable bytes are appended; any other key leaves the buffer |
| Input.Printable | kilo.cpp:747 | on the model's unsigned bytes, a byte that is not a control byte and is below 128 is exactly a byte from space to tilde |
| Input.PromptTypeThenErase | kilo.cpp:742-751 | typing a printable byte and erasing it restores the buffer |
| Input.Prompt | kilo.cpp:712-755 | the prompt ends once ESC is among the keys; the returned string is printable; it is empty only when ESC was pressed, and non-empty only after Enter |
| Input.PageMove | kilo.cpp:671-687 | PageUp lands a screenful above rowoff (or on row 0); PageDown lands at rowoff + 2 * screenrows - 1, clamped to the row count; the cursor invariant is kept; cx never grows and ends as the shortest of its old value and the rows passed after the screen line it starts from (`PageTop`), so it is unchanged when none of them is shorter |
| Input.RepeatMove | kilo.cpp:684-686 | n vertical moves shift cy by n, stopping at the document ends; each move trims cx to the row reached (kilo.cpp:617-622), so cx never grows and ends as the shortest of its old value and the rows passed, unchanged when none of them is shorter |
| Input.DispatchByte | kilo.cpp:630-708 | Enter splits the line, Backspace and Ctrl-H delete, Ctrl-S and Ctrl-F hand over, Ctrl-L and ESC do nothing, and any other byte is inserted |
| Input.DispatchSpecial | kilo.cpp:654-695 | Home goes to column 0, End to the row end, Delete moves right then deletes, PageUp and PageDown are the page move, the arrows are the cursor move; only Delete touches the rows |
| Input.Navigate | kilo.cpp:654-695 | Home, End, PageUp, PageDown and the arrows move the cursor as their cases say, change nothing else, and keep the cursor valid |
| Input.Dispatch | kilo.cpp:630-708 | a save or search is requested exactly for Ctrl-S or Ctrl-F; navigation keys leave the rows alone; the special keys other than Delete do exactly what `Navigate` does; Ctrl-S, Ctrl-F, Ctrl-L and ESC leave the editor as it is; the editing keys do what their operations do |
| Input.ProcessKeypress | kilo.cpp:625-710 | Ctrl-Q with unsaved changes and presses left warns and counts down; otherwise it exits; every other key re-arms the counter; the special keys other than Delete move the cursor as `Navigate` does and continue; the cursor invariant is kept |
| Find.StrStr | kilo.cpp:518 | a match lies inside the text |
| Find.StrStrFirstOccurrence | kilo.cpp:518 | strstr returns the first occurrence, and nothing exactly when the query occurs nowhere |
| Find.StrStrFromSpec | kilo.cpp:518 | the scan from a position finds the first occurrence at or after it |
| Find.Next | kilo.cpp:511-515 | the next probed row stays within the rows, wrapping at both ends |
| Find.Probe | kilo.cpp:509-515 | the i-th probed row is a row |
| Find.NextProbe | kilo.cpp:509-515 | stepping from the i-th probe gives the (i+1)-th |
| Find.ProbesCoverRows | kilo.cpp:509-515 | numrows probes visit every row |
| Find.Scan | kilo.cpp:509-527 | a returned match is a row whose render holds the query at the returned offset |
| Find.ScanMissesAll | kilo.cpp:509-527 | a scan that finds nothing has probed every remaining row in vain |
| Find.ScanFindsFirst | kilo.cpp:509-527 | a scan stops at the first probe that matches |
| Find.Search | kilo.cpp:506-527 | nothing is found exactly when no render holds the query; otherwise the match is the first matching row in probe order from last_match, at strstr's offset |
| Find.FreshSearchFindsFirstRow | kilo.cpp:506-527 | a search with no previous match finds the topmost matching row |
| Find.NextState | kilo.cpp:486-507 | Enter, ESC and non-arrow keys reset the state; arrows set the direction, forced forward while there is no previous match |
| Find.FindCallback | kilo.cpp:481-528 | Enter and ESC only reset; otherwise a match jumps to the cell holding the match's rendered offset, sets rowoff to numrows and records the row; no match changes only the state |
| Find.JumpTo | kilo.cpp:521-524 | the cursor lands on the match row, in the raw cell holding the match's rendered column, with rowoff set to numrows |
| Find.FindPrompt | kilo.cpp:712-755 | the prompt with the callback ends exactly when the plain prompt does, returns the same string, resets the search state, and changes only the cursor and viewport |
| Find.FindAsWritten | kilo.cpp:530-547 | a search ends when the prompt does; a non-empty query puts back the saved cursor and offsets; an empty (cancelled) one keeps the editor where the search left it; the rows and dirty are untouched |
| Find.FindCorrected | kilo.cpp:530-547 | a cancelled search puts back the saved cursor and offsets; a confirmed one keeps the cursor on the match |
| Find.CancelledSearchRestores | kilo.cpp:530-547 | after a cancelled corrected search the editor equals its state before the search, up to rx |
| Find.RendersTwoRows | kilo.cpp:270-301 | the rows "a", "b" render as themselves |
| Find.StrStrSingle | kilo.cpp:518 | "b" does not occur in "a", and occurs in "b" at 0 |
| Find.SearchTwoRows | kilo.cpp:506-527 | over "a", "b" a fresh search for "b" finds row 1 at offset 0 on the second probe |
| Find.AfterTypingB | kilo.cpp:712-755 | typing "b" in the search prompt over "a", "b" moves the cursor to row 1 and rowoff past the last row |
| Find.CancelKeepsMatchAsWritten | kilo.cpp:538-539 | searching "b" then ESC leaves the cursor on row 1 as written, but on row 0 when corrected |
| Find.ConfirmDiscardsMatchAsWritten | kilo.cpp:540-546 | searching "b" then Enter moves the cursor back to row 0 as written, but keeps it on row 1 when corrected |
| Session.Turn | kilo.cpp:953-957 | one loop iteration keeps the cursor invariant |
| Session.Run | kilo.cpp:953-957 | the loop keeps the cursor invariant and handles at most one outcome per key |
| Session.RunStopsOnlyAtEnd | kilo.cpp:953-957 | every handled key but the last let the loop go on, and the loop stops early only at an exit, a save or a search |
| Session.ConsOngoing | kilo.cpp:953-957 | an outcome that lets the loop go on, before a run that stops only at its end, gives a run that stops only at its end |
| Session.RunCons | kilo.cpp:953-957 | a turn that lets the loop go on is followed by the run over the remaining keys |
| Session.QuitPressWarns | kilo.cpp:636-643 | Ctrl-Q with unsaved changes and presses left warns with the count and decrements it |
| Session.ArrowRearmsQuit | kilo.cpp:690-709 | an arrow key re-arms the counter and leaves dirty alone |
| Session.LastQuitPressExits | kilo.cpp:636-647 | Ctrl-Q with no presses left quits at once, whatever keys follow |
| Session.QuitNeedsConfirmation | kilo.cpp:627-647 | with unsaved changes, q + 1 Ctrl-Q presses warn q times, counting down, then quit |
| Session.DirtyQuitTakesFourPresses | kilo.cpp:20 | with unsaved changes a fresh counter takes four Ctrl-Q presses to quit |
| Session.CleanQuitIsImmediate | kilo.cpp:636-647 | without unsaved changes the first Ctrl-Q quits |
| Session.OtherKeyRearmsQuit | kilo.cpp:636-709 | after an arrow key, Ctrl-Q with unsaved changes warns with the full count again |
| Session.TypeAtEndOfRow | kilo.cpp:705-706 | typing a text byte at the end of the only row appends it there |
| Session.TypeIntoEmptyDocument | kilo.cpp:379-387 | typing a text byte into an empty document creates a one-byte row with the cursor after it |
| Session.BackspaceJoinsRows | kilo.cpp:389-409 | Backspace at the start of "def" joins it onto "abc" with the cursor at the join |
| Session.DeleteAtEndOfRowJoinsRows | kilo.cpp:663-668 | Delete at the end of "abc" joins "def" onto it and the cursor stays at the join |
| Session.TabRendersToNextStop | kilo.cpp:270-301 | "a", tab, "b" renders as "a", seven spaces, "b", and raw column 2 is rendered column 8 |

## Left out

- Raw mode, `die` and `atexit` (kilo.cpp:69-106): terminal settings and process exit.
- Window-size probing and the cursor-position query (kilo.cpp:190-239): terminal I/O. The screen size is a parameter of at least 1 in each direction.
- `editorReadKey`'s wait for the first byte and its `die` on a read error: the model reads from a finite sequence. No byte at all gives `None`, and a sequence that runs out mid-escape gives a bare ESC.
- `editorSave` and the file side of `editorOpen` (kilo.cpp:452-478, 550-571): file I/O. The serialiser is modelled, and so is the byte-level line reader as its inverse. A save request is the `SaveRequested` outcome.
- The status and message bars and `editorSetStatusMessage` (kilo.cpp:825-863, 907-915): formatting and wall-clock time.
- The rest of `editorRefreshScreen` (kilo.cpp:864-905): the cursor hide/show and positioning sequences and the `write` to the terminal. Its scroll is `Output.Scroll` and its row drawing is `Output.DrawRows`.
- `initEditor` (kilo.cpp:918-935): it zeroes the state and asks the terminal for the window size. The model's states are built directly, with the screen size as a parameter.
- `main` (kilo.cpp:937-959): only its loop is modelled, as `Session.Run`.
- Memory management (`malloc`, `realloc`, `memmove`, `free`): these become sequence operations.
- The dangling row pointer in `editorInsertNewline` (kilo.cpp:419-424): `row` is used after `editorInsertRow` may have moved the row array. The model gives the intended split.
- Signed `char`: bytes from 128 up come back negative from `editorReadKey`. The model keys are the bytes 0 to 255 plus the special keys. One consequence: in the source such a byte passes `c < 128` and is not a control character, so `editorPrompt` appends it (kilo.cpp:747-750) and a UTF-8 letter such as "é" can be searched for. The model's prompt drops bytes from 128 up.
- Integer width: `dirty`, the cursor and the offsets are unbounded, so `int` overflow is not modelled.
- Find.StrStr: `strstr` stops at the first NUL byte of a render buffer, and the model does not. The search is exact for rows without NUL bytes, which is the case this model assumes.
- Find.StrStr: the contract only bounds the offset. The first-occurrence property is `Find.StrStrFirstOccurrence`.
- Find.Scan: the contract only says that a match is real. The probe order is in `Find.ScanFindsFirst` and `Find.ScanMissesAll`.
- Session.Run: the contract states only the cursor invariant and the outcome count. The stopping rule is `Session.RunStopsOnlyAtEnd`. The run stops at a save or a search request, because `editorSave` and `editorFind` take over the keyboard.
- FileIo.RowsToStringAsWritten: the contract states only the reported length. The buffer contents are compared with the corrected serialiser in `FileIo.AsWrittenAgreesWithoutNul`.
- `editorPrompt`'s status message and redraw (kilo.cpp:718-723): only the scroll part of the redraw is modelled, inside `Find.FindPrompt`.

## Findings

| source | as written | input that shows it | evidently intended | confidence | as-written member | corrected member |
|---|---|---|---|---|---|---|
| kilo.cpp:433-450 | `buffer.append(E.row[j].chars)` copies a row only up to its first NUL byte, while `buflen` counts every byte | one row "a", NUL, "b" (Ctrl-@ types a NUL): buflen is 4, the buffer is "a\n" (2 bytes), so `editorSave` writes past the end of the string | the buffer holds every byte of every row, and buflen is its length | high; not executed | FileIo.RowsToStringAsWritten, FileIo.NulRowOvershootsBuffer | FileIo.RowsToString, FileIo.AsWrittenAgreesWithoutNul |
| kilo.cpp:538-546 | `editorFind` returns early when the query is empty (cancelled with ESC) and restores the saved cursor and offsets when it is non-empty (confirmed with Enter) | rows "a", "b", cursor at row 0; keys "b" then ESC leave the cursor on row 1; keys "b" then Enter put it back on row 0 | a cancelled search restores the saved position; a confirmed search keeps the cursor on the match | high; not executed | Find.FindAsWritten, Find.CancelKeepsMatchAsWritten, Find.ConfirmDiscardsMatchAsWritten | Find.FindCorrected, Find.CancelledSearchRestores |

=== FILE: bytes.dfy ===
/** Byte values, the ASCII constants the editor reacts to, and an Option type. */
module Bytes {

  /** A byte as the terminal and the file hold it (0..255). */
  type Byte = b: int | 0 <= b < 256

  const NUL: Byte := 0
  const TAB: Byte := 9
  const NEWLINE: Byte := 10
  const CR: Byte := 13       // '\r', what the Enter key sends in raw mode
  const ESC: Byte := 27      // '\x1b'
  const SPACE: Byte := 32
  const TILDE: Byte := 126   // '~'
  const BACKSPACE: Byte := 127

  /** CTRL_KEY(k) of kilo.cpp: the byte a terminal sends for Ctrl plus k, that is k & 0x1f. */
  function CtrlKey(k: Byte): (r: Byte)
    ensures r < 32
    ensures (k - r) % 32 == 0
  {
    k % 32
  }

  /** A run of n spaces. */
  function Spaces(n: nat): (r: seq<Byte>)
    ensures |r| == n
    ensures forall i :: 0 <= i < n ==> r[i] == SPACE
  {
    if n == 0 then [] else [SPACE] + Spaces(n - 1)
  }

  datatype Option<T> = None | Some(value: T)
}

=== FILE: editing.dfy ===
/**
 * The editor state (struct editorConfig) and the editor operations of
 * kilo.cpp: row insertion and deletion, character insertion and deletion at
 * the cursor, and line split on Enter.
 */
module Editing {
  import opened Bytes
  import opened Rows

  /** A terminal dimension the editor draws into; at least one row or column. */
  type Dim = n: int | n >= 1 witness 1

  /** The editor state E: cursor (cx, cy), rendered cursor column rx, scroll
      offsets, screen size, the rows, and the dirty counter. The number of
      rows, numrows, is |rows|. */
  datatype Editor = Editor(
    cx: nat, cy: nat, rx: nat,
    rowoff: nat, coloff: nat,
    screenrows: Dim, screencols: Dim,
    rows: seq<Row>,
    dirty: nat)
  {
    /** Length of the row under the cursor; 0 on the line past the last row. */
    function RowLen(): nat
    {
      if cy < |rows| then |rows[cy].chars| else 0
    }

    /** The cursor is on a row or on the line just past the last one, and not
        past the end of its line. */
    predicate CursorOk()
    {
      cy <= |rows| && cx <= RowLen()
    }
  }

  /** editorInsertRow: insert a row holding s at index at; out of range is a no-op. */
  function InsertRow(e: Editor, at: int, s: seq<Byte>): (e': Editor)
    ensures (at < 0 || at > |e.rows|) ==> e' == e
    ensures 0 <= at <= |e.rows| ==>
      && e' == e.(rows := e'.rows, dirty := e.dirty + 1)
      && |e'.rows| == |e.rows| + 1
      && e'.rows[at].chars == s
      && (forall i :: 0 <= i < at ==> e'.rows[i] == e.rows[i])
      && (forall i :: at < i < |e'.rows| ==> e'.rows[i] == e.rows[i - 1])
  {
    if at < 0 || at > |e.rows| then e
    else e.(rows := e.rows[..at] + [Row(s)] + e.rows[at..], dirty := e.dirty + 1)
  }

  /** editorDelRow: remove the row at index at; out of range is a no-op. */
  function DelRow(e: Editor, at: int): (e': Editor)
    ensures (at < 0 || at >= |e.rows|) ==> e' == e
    ensures 0 <= at < |e.rows| ==>
      && e' == e.(rows := e'.rows, dirty := e.dirty + 1)
      && |e'.rows| == |e.rows| - 1
      && (forall i :: 0 <= i < at ==> e'.rows[i] == e.rows[i])
      && (forall i :: at <= i < |e'.rows| ==> e'.rows[i] == e.rows[i + 1])
  {
    if at < 0 || at >= |e.rows| then e
    else e.(rows := e.rows[..at] + e.rows[at + 1..], dirty := e.dirty + 1)
  }

  /** Inserting a row and deleting it again restores the rows. */
  lemma InsertThenDeleteRow(e: Editor, at: int, s: seq<Byte>)
    requires 0 <= at <= |e.rows|
    ensures DelRow(InsertRow(e, at, s), at) == e.(dirty := e.dirty + 2)
  {
    var e2 := DelRow(InsertRow(e, at, s), at);
    assert e2.rows == e.rows;
  }

  /** Replace row y, leaving the other rows alone. */
  function SetRow(e: Editor, y: nat, row: Row): (e': Editor)
    requires y < |e.rows|
    ensures e' == e.(rows := e'.rows)
    ensures |e'.rows| == |e.rows| && e'.rows[y] == row
    ensures forall i :: 0 <= i < |e.rows| && i != y ==> e'.rows[i] == e.rows[i]
  {
    e.(rows := e.rows[y := row])
  }

  /** editorInsertChar: insert byte c at the cursor (appending an empty row first
      when the cursor is past the last row) and advance the cursor. */
  function InsertChar(e: Editor, c: Byte): (e': Editor)
    requires e.cy <= |e.rows|
    ensures e'.cy == e.cy && e'.cx == e.cx + 1
    ensures |e'.rows| == |e.rows| + (if e.cy == |e.rows| then 1 else 0)
    ensures e.cy == |e.rows| ==> e'.rows[e.cy].chars == [c] && e'.dirty == e.dirty + 2
    ensures e.cy < |e.rows| ==> e'.dirty == e.dirty + 1
    ensures e.cy < |e.rows| ==> e'.rows[e.cy] == RowInsertChar(e.rows[e.cy], e.cx, c)
    ensures forall i :: 0 <= i < |e.rows| && i != e.cy ==> e'.rows[i] == e.rows[i]
    ensures e' == e.(cx := e'.cx, rows := e'.rows, dirty := e'.dirty)
    ensures e.CursorOk() ==> e'.CursorOk()
  {
    var e1 := if e.cy == |e.rows| then InsertRow(e, |e.rows|, []) else e;
    var e2 := SetRow(e1, e.cy, RowInsertChar(e1.rows[e.cy], e.cx, c));
    e2.(dirty := e2.dirty + 1, cx := e.cx + 1)
  }

  /** editorDelChar: delete the byte left of the cursor; at column 0 of a row
      other than the first, join the row onto the previous one. A no-op past the
      last row and at the start of the document. */
  function DelChar(e: Editor): (e': Editor)
    requires e.cy <= |e.rows|
    ensures e.cy == |e.rows| || (e.cx == 0 && e.cy == 0) ==> e' == e
    ensures e.cy < |e.rows| && e.cx > 0 ==>
      && e'.cy == e.cy && e'.cx == e.cx - 1
      && |e'.rows| == |e.rows|
      && e'.rows[e.cy] == RowDelChar(e.rows[e.cy], e.cx - 1)
      && (forall i :: 0 <= i < |e.rows| && i != e.cy ==> e'.rows[i] == e.rows[i])
      && e'.dirty == (if e.cx <= |e.rows[e.cy].chars| then e.dirty + 1 else e.dirty)
    ensures e.cy < |e.rows| && e.cx == 0 && e.cy > 0 ==>
      && e'.cy == e.cy - 1 && e'.cx == |e.rows[e.cy - 1].chars|
      && |e'.rows| == |e.rows| - 1
      && e'.rows[e.cy - 1].chars == e.rows[e.cy - 1].chars + e.rows[e.cy].chars
      && (forall i :: 0 <= i < e.cy - 1 ==> e'.rows[i] == e.rows[i])
      && (forall i :: e.cy <= i < |e'.rows| ==> e'.rows[i] == e.rows[i + 1])
      && e'.dirty == e.dirty + 2
    ensures e' == e.(cx := e'.cx, cy := e'.cy, rows := e'.rows, dirty := e'.dirty)
    ensures e.CursorOk() ==> e'.CursorOk()
  {
    if e.cy == |e.rows| then e
    else if e.cx == 0 && e.cy == 0 then e
    else if e.cx > 0 then
      var e1 := SetRow(e, e.cy, RowDelChar(e.rows[e.cy], e.cx - 1));
      var dirty := if e.cx - 1 < |e.rows[e.cy].chars| then e.dirty + 1 else e.dirty;
      e1.(dirty := dirty, cx := e.cx - 1)
    else
      var prev := e.rows[e.cy - 1];
      var joined := SetRow(e, e.cy - 1, RowAppendString(prev, e.rows[e.cy].chars));
      var e2 := DelRow(joined.(cx := |prev.chars|, dirty := e.dirty + 1), e.cy);
      e2.(cy := e.cy - 1)
  }

  /** editorInsertNewline: split the row at the cursor (or insert an empty row
      above it at column 0) and move the cursor to the start of the next row. */
  function InsertNewline(e: Editor): (e': Editor)
    requires e.cy <= |e.rows|
    requires e.cx > 0 ==> e.cy < |e.rows| && e.cx <= |e.rows[e.cy].chars|
    ensures e'.cy == e.cy + 1 && e'.cx == 0
    ensures |e'.rows| == |e.rows| + 1
    ensures e.cx == 0 ==> e'.rows[e.cy].chars == []
    ensures e.cx == 0 ==> forall i :: e.cy < i < |e'.rows| ==> e'.rows[i] == e.rows[i - 1]
    ensures e.cx > 0 ==>
      && e'.rows[e.cy].chars == e.rows[e.cy].chars[..e.cx]
      && e'.rows[e.cy + 1].chars == e.rows[e.cy].chars[e.cx..]
      && (forall i :: e.cy + 1 < i < |e'.rows| ==> e'.rows[i] == e.rows[i - 1])
    ensures forall i :: 0 <= i < e.cy ==> e'.rows[i] == e.rows[i]
    ensures e'.dirty == e.dirty + 2
    ensures e' == e.(cx := 0, cy := e.cy + 1, rows := e'.rows, dirty := e'.dirty)
    ensures e'.CursorOk()
  {
    var e1 :=
      if e.cx == 0 then InsertRow(e, e.cy, [])
      else
        var chars := e.rows[e.cy].chars;
        var split := InsertRow(e, e.cy + 1, chars[e.cx..]);
        SetRow(split, e.cy, Row(chars[..e.cx]));
    e1.(cy := e.cy + 1, cx := 0, dirty := e1.dirty + 1)
  }

  /** Enter followed by Backspace on a row gives back the original rows and
      cursor; only the dirty counter moves on (by 4). */
  lemma NewlineThenBackspace(e: Editor)
    requires e.cy < |e.rows| && e.cx <= |e.rows[e.cy].chars|
    ensures DelChar(InsertNewline(e)) == e.(dirty := e.dirty + 4)
  {
    var e1 := InsertNewline(e);
    var e2 := DelChar(e1);
    var chars := e.rows[e.cy].chars;
    assert e1.rows[e.cy].chars + e1.rows[e.cy + 1].chars == chars by {
      if e.cx == 0 {
        assert e1.rows[e.cy + 1] == e.rows[e.cy];
      } else {
        assert chars[..e.cx] + chars[e.cx..] == chars;
      }
    }
    assert e2.rows[e.cy] == e.rows[e.cy];
    assert e2.rows == e.rows;
  }

  /** Typing a byte on a row and then Backspace gives back the original rows and
      cursor; only the dirty counter moves on (by 2). */
  lemma TypeThenBackspace(e: Editor, c: Byte)
    requires e.cy < |e.rows| && e.cx <= |e.rows[e.cy].chars|
    ensures DelChar(InsertChar(e, c)) == e.(dirty := e.dirty + 2)
  {
    var e1 := InsertChar(e, c);
    var e2 := DelChar(e1);
    InsertThenDeleteChar(e.rows[e.cy], e.cx, c);
    assert e2.rows == e.rows;
  }

  /** Enter on the line past the last row adds an empty row that Backspace then
      leaves in place: the cursor ends past the last row again, where deleting
      is a no-op. */
  lemma NewlineAtEndIsNotUndone(e: Editor)
    requires e.cy == |e.rows| && e.cx == 0
    ensures DelChar(InsertNewline(e)) == InsertNewline(e)
    ensures |DelChar(InsertNewline(e)).rows| == |e.rows| + 1
  {
  }
}

=== FILE: fileio.dfy ===
/**
 * The serialiser of kilo.cpp (editorRowsToString), with the line reader of
 * editorOpen (getline plus end-of-line trimming) as its inverse.
 */
module FileIo {
  import opened Bytes
  import opened Rows

  /** The buffer editorRowsToString returns and the length it reports through buflen. */
  datatype Serialized = Serialized(buffer: seq<Byte>, buflen: nat)

  /** The raw bytes of every row, in order. */
  function Contents(rows: seq<Row>): seq<seq<Byte>>
  {
    seq(|rows|, i requires 0 <= i < |rows| => rows[i].chars)
  }

  /** The first loop of editorRowsToString: the sum of size + 1 over the rows,
      which is exactly the length of the rows joined with a newline after each. */
  function BufLen(rows: seq<Row>): (n: nat)
    ensures n == |Join(rows)|
    ensures n >= |rows|
  {
    if |rows| == 0 then 0 else |rows[0].chars| + 1 + BufLen(rows[1..])
  }

  /** Every row's bytes followed by a newline. */
  function Join(rows: seq<Row>): seq<Byte>
  {
    if |rows| == 0 then [] else rows[0].chars + [NEWLINE] + Join(rows[1..])
  }

  /** Where row i starts in the serialised buffer: the bytes and newlines of
      the rows before it. */
  function Offset(rows: seq<Row>, i: nat): nat
    requires i <= |rows|
  {
    BufLen(rows[..i])
  }

  /** editorRowsToString, appending each row's full content: the reported
      length is the length of the buffer, and the buffer holds every row's
      bytes at its offset, each followed by a newline. */
  function RowsToString(rows: seq<Row>): (r: Serialized)
    ensures r.buflen == |r.buffer| == BufLen(rows)
    ensures forall i :: 0 <= i < |rows| ==>
      && Offset(rows, i) + |rows[i].chars| < |r.buffer|
      && r.buffer[Offset(rows, i)..Offset(rows, i) + |rows[i].chars|] == rows[i].chars
      && r.buffer[Offset(rows, i) + |rows[i].chars|] == NEWLINE
  {
    forall i | 0 <= i < |rows|
      ensures Offset(rows, i) + |rows[i].chars| < |Join(rows)|
      ensures Join(rows)[Offset(rows, i)..Offset(rows, i) + |rows[i].chars|] == rows[i].chars
      ensures Join(rows)[Offset(rows, i) + |rows[i].chars|] == NEWLINE
    {
      JoinLayout(rows, i);
    }
    Serialized(Join(rows), BufLen(rows))
  }

  /** Row i of the buffer sits at Offset(rows, i), followed by a newline. */
  lemma {:induction false} JoinLayout(rows: seq<Row>, i: nat)
    requires i < |rows|
    ensures Offset(rows, i) + |rows[i].chars| < |Join(rows)|
    ensures Join(rows)[Offset(rows, i)..Offset(rows, i) + |rows[i].chars|] == rows[i].chars
    ensures Join(rows)[Offset(rows, i) + |rows[i].chars|] == NEWLINE
    decreases i
  {
    var head := rows[0].chars + [NEWLINE];
    assert Join(rows) == head + Join(rows[1..]);
    if i == 0 {
      assert rows[..0] == [];
    } else {
      JoinLayout(rows[1..], i - 1);
      assert rows[..i][1..] == rows[1..][..i - 1];
      assert Offset(rows, i) == |head| + Offset(rows[1..], i - 1);
    }
  }

  /** A row's bytes as a C string: everything before the first NUL. */
  function CString(chars: seq<Byte>): (s: seq<Byte>)
    ensures s <= chars
    ensures NUL !in s
    ensures NUL !in chars ==> s == chars
  {
    if |chars| == 0 || chars[0] == NUL then [] else [chars[0]] + CString(chars[1..])
  }

  /** editorRowsToString as written: buffer.append(E.row[j].chars) copies a
      row only up to its first NUL byte, while buflen counts every byte. */
  function RowsToStringAsWritten(rows: seq<Row>): (r: Serialized)
    ensures r.buflen == BufLen(rows)
  {
    Serialized(JoinCStrings(rows), BufLen(rows))
  }

  /** The second loop as written: each row's C string and a newline. The bytes
      copied never exceed buflen, and fall short of it once a row holds a NUL. */
  function JoinCStrings(rows: seq<Row>): (s: seq<Byte>)
    ensures |s| <= BufLen(rows)
    ensures (exists i :: 0 <= i < |rows| && NUL in rows[i].chars) ==> |s| < BufLen(rows)
  {
    if |rows| == 0 then [] else CString(rows[0].chars) + [NEWLINE] + JoinCStrings(rows[1..])
  }

  /** On NUL-free rows the code as written agrees with the corrected serialiser. */
  lemma {:induction false} AsWrittenAgreesWithoutNul(rows: seq<Row>)
    requires forall i :: 0 <= i < |rows| ==> NUL !in rows[i].chars
    ensures RowsToStringAsWritten(rows) == RowsToString(rows)
    decreases |rows|
  {
    if |rows| > 0 {
      AsWrittenAgreesWithoutNul(rows[1..]);
      assert CString(rows[0].chars) == rows[0].chars;
      assert JoinCStrings(rows[1..]) == Join(rows[1..]);
      assert JoinCStrings(rows) == Join(rows);
    }
    assert RowsToString(rows).buffer == Join(rows);
  }

  /** A row holding a NUL byte (Ctrl-@ types one) makes buflen overshoot the
      buffer, so editorSave's file.write(buffer.c_str(), len) reads past the
      end of the string. */
  lemma NulRowOvershootsBuffer()
    ensures var r := RowsToStringAsWritten([Row([0x61, NUL, 0x62])]);
      r.buflen == 4 && |r.buffer| == 2
  {
    var rows := [Row([0x61, NUL, 0x62])];
    var row := rows[0].chars;
    assert rows[1..] == [];
    assert CString(row[1..]) == [];
    assert CString(row) == [0x61];
    assert JoinCStrings(rows) == [0x61, NEWLINE];
    assert BufLen(rows) == |row| + 1 + BufLen([]);
  }

  /** How many bytes one getline call consumes: up to and including the first
      newline, or the rest of the input when there is none. */
  function LineEnd(buf: seq<Byte>): (n: nat)
    requires |buf| > 0
    ensures 1 <= n <= |buf|
    ensures forall i :: 0 <= i < n - 1 ==> buf[i] != NEWLINE
    ensures buf[n - 1] == NEWLINE || (n == |buf| && NEWLINE !in buf)
  {
    if buf[0] == NEWLINE || |buf| == 1 then 1 else 1 + LineEnd(buf[1..])
  }

  /** editorOpen's trimming loop: drop trailing '\n' and '\r' bytes. */
  function TrimEol(line: seq<Byte>): (t: seq<Byte>)
    ensures t <= line
    ensures |t| > 0 ==> t[|t| - 1] != NEWLINE && t[|t| - 1] != CR
    ensures forall i :: |t| <= i < |line| ==> line[i] == NEWLINE || line[i] == CR
  {
    if |line| > 0 && (line[|line| - 1] == NEWLINE || line[|line| - 1] == CR)
    then TrimEol(line[..|line| - 1])
    else line
  }

  /** The rows editorOpen builds from a file's bytes: at most one per byte,
      and every one of them survives a save and reload unchanged. */
  function ReadLines(buf: seq<Byte>): (ls: seq<seq<Byte>>)
    ensures |ls| <= |buf|
    ensures AllStorable(ls)
    decreases |buf|
  {
    if |buf| == 0 then []
    else
      var n := LineEnd(buf);
      var line := TrimEol(buf[..n]);
      assert NEWLINE !in line by {
        if |line| == n {
          assert line == buf[..n];
        } else {
          assert forall i :: 0 <= i < |line| ==> line[i] == buf[i];
        }
      }
      var rest := ReadLines(buf[n..]);
      assert forall i :: 1 <= i < |rest| + 1 ==> ([line] + rest)[i] == rest[i - 1];
      [line] + rest
  }

  /** A row that survives a save and a reload unchanged: no newline inside it
      and no carriage return at its end. */
  predicate Storable(chars: seq<Byte>)
  {
    NEWLINE !in chars && (|chars| > 0 ==> chars[|chars| - 1] != CR)
  }

  /** Every line survives a save and reload unchanged. */
  predicate AllStorable(ls: seq<seq<Byte>>)
  {
    forall i :: 0 <= i < |ls| ==> Storable(ls[i])
  }

  /** A storable row followed by a newline trims back to the row. */
  lemma TrimEolStorable(chars: seq<Byte>)
    requires Storable(chars)
    ensures TrimEol(chars + [NEWLINE]) == chars
  {
    assert (chars + [NEWLINE])[..|chars|] == chars;
  }

  /** Reading back the serialised rows gives the rows' contents again. */
  lemma ReadLinesRowsToString(rows: seq<Row>)
    requires forall i :: 0 <= i < |rows| ==> Storable(rows[i].chars)
    ensures ReadLines(RowsToString(rows).buffer) == Contents(rows)
  {
    ReadLinesJoin(rows);
  }

  lemma {:induction false} ReadLinesJoin(rows: seq<Row>)
    requires forall i :: 0 <= i < |rows| ==> Storable(rows[i].chars)
    ensures ReadLines(Join(rows)) == Contents(rows)
    decreases |rows|
  {
    if |rows| > 0 {
      var chars := rows[0].chars;
      assert Storable(chars);
      assert Join(rows) == chars + [NEWLINE] + Join(rows[1..]);
      ReadLinesCons(chars, Join(rows[1..]));
      ReadLinesJoin(rows[1..]);
      ContentsCons(rows);
    }
  }

  lemma ContentsCons(rows: seq<Row>)
    requires |rows| > 0
    ensures Contents(rows) == [rows[0].chars] + Contents(rows[1..])
  {
  }

  /** A storable row and its newline read back as one line, then the rest. */
  lemma ReadLinesCons(chars: seq<Byte>, rest: seq<Byte>)
    requires Storable(chars)
    ensures ReadLines(chars + [NEWLINE] + rest) == [chars] + ReadLines(rest)
  {
    var buf := chars + [NEWLINE] + rest;
    LineEndAfter(chars, rest);
    assert buf[..|chars| + 1] == chars + [NEWLINE];
    TrimEolStorable(chars);
    assert buf[|chars| + 1..] == rest;
  }

  lemma {:induction false} LineEndAfter(chars: seq<Byte>, rest: seq<Byte>)
    requires NEWLINE !in chars
    ensures LineEnd(chars + [NEWLINE] + rest) == |chars| + 1
    decreases |chars|
  {
    var buf := chars + [NEWLINE] + rest;
    if |chars| > 0 {
      assert buf[1..] == chars[1..] + [NEWLINE] + rest;
      LineEndAfter(chars[1..], rest);
    }
  }

  /** A row holding a newline byte (Ctrl-J types one) comes back as two rows. */
  lemma NewlineInRowSplitsOnReload()
    ensures ReadLines(RowsToString([Row([0x61, NEWLINE, 0x62])]).buffer) == [[0x61], [0x62]]
  {
    var rows := [Row([0x61, NEWLINE, 0x62])];
    assert rows[1..] == [];
    var buf := RowsToString(rows).buffer;
    assert buf == [0x61, NEWLINE, 0x62, NEWLINE];
    LineEndAfter([0x61], [0x62, NEWLINE]);
    assert buf[..2] == [0x61] + [NEWLINE];
    TrimEolStorable([0x61]);
    var tail := buf[2..];
    assert tail == [0x62] + [NEWLINE] + [];
    LineEndAfter([0x62], []);
    assert tail[..2] == [0x62] + [NEWLINE];
    TrimEolStorable([0x62]);
    assert tail[2..] == [];
    assert ReadLines(tail) == [[0x62]] + ReadLines([]);
    assert ReadLines(buf) == [[0x61]] + ReadLines(tail);
  }
}

=== FILE: find.dfy ===
/**
 * Incremental search of kilo.cpp: editorFindCallback, which moves the cursor
 * to the next row containing the query after every prompt key, and editorFind,
 * which runs the prompt and then settles the cursor. The callback's static
 * variables are an explicit SearchState.
 */
module Find {
  import opened Bytes
  import opened Rows
  import opened Editing
  import opened Terminal
  import opened Input
  import opened Output

  /** last_match (-1: none yet) and direction (1 forward, -1 backward). */
  datatype SearchState = SearchState(lastMatch: int, direction: int)

  const INITIAL: SearchState := SearchState(-1, 1)

  /** The query occurs in text at position i. */
  predicate Occurs(text: seq<Byte>, query: seq<Byte>, i: nat)
  {
    i + |query| <= |text| && text[i..i + |query|] == query
  }

  /** strstr: the first position where the query occurs, if any. */
  function StrStr(text: seq<Byte>, query: seq<Byte>): (r: Option<nat>)
    ensures r.Some? ==> r.value + |query| <= |text|
  {
    StrStrFrom(text, query, 0)
  }

  /** strstr's scan from position from on. */
  function StrStrFrom(text: seq<Byte>, query: seq<Byte>, from: nat): (r: Option<nat>)
    ensures r.Some? ==> from <= r.value && r.value + |query| <= |text|
    decreases |text| - from
  {
    if from + |query| > |text| then None
    else if text[from..from + |query|] == query then Some(from)
    else StrStrFrom(text, query, from + 1)
  }

  /** strstr returns the first occurrence of the query, and nothing exactly
      when the query occurs nowhere. */
  lemma StrStrFirstOccurrence(text: seq<Byte>, query: seq<Byte>)
    ensures var r := StrStr(text, query);
      && (r.Some? ==> Occurs(text, query, r.value))
      && (r.Some? ==> forall j :: 0 <= j < r.value ==> !Occurs(text, query, j))
      && (r.None? ==> forall j: nat :: !Occurs(text, query, j))
  {
    StrStrFromSpec(text, query, 0);
  }

  lemma {:induction false} StrStrFromSpec(text: seq<Byte>, query: seq<Byte>, from: nat)
    requires forall j :: 0 <= j < from ==> !Occurs(text, query, j)
    ensures var r := StrStrFrom(text, query, from);
      && (r.Some? ==> Occurs(text, query, r.value))
      && (r.Some? ==> forall j :: 0 <= j < r.value ==> !Occurs(text, query, j))
      && (r.None? ==> forall j: nat :: !Occurs(text, query, j))
    decreases |text| - from
  {
    if from + |query| <= |text| && !Occurs(text, query, from) {
      StrStrFromSpec(text, query, from + 1);
    }
  }

  /** The row to probe after current when searching in direction dir over n
      rows, wrapping at both ends. */
  function Next(current: int, dir: int, n: nat): (next: nat)
    requires n > 0 && -1 <= current < n && (dir == 1 || dir == -1)
    requires current == -1 ==> dir == 1
    ensures next < n
  {
    var c := current + dir;
    if c == -1 then n - 1 else if c == n then 0 else c
  }

  /** The i-th row probed (1 <= i <= n) from start in direction dir. */
  function Probe(start: int, dir: int, n: nat, i: nat): (r: nat)
    requires n > 0 && -1 <= start < n && (dir == 1 || dir == -1)
    requires start == -1 ==> dir == 1
    requires 1 <= i <= n
    ensures r < n
  {
    var t := if dir == 1 then start + i else start - i;
    if t < 0 then t + n else if t >= n then t - n else t
  }

  lemma NextProbe(start: int, dir: int, n: nat, i: nat)
    requires n > 0 && -1 <= start < n && (dir == 1 || dir == -1)
    requires start == -1 ==> dir == 1
    requires 1 <= i < n
    ensures Next(Probe(start, dir, n, i), dir, n) == Probe(start, dir, n, i + 1)
  {
  }

  /** n probes visit every row. */
  lemma ProbesCoverRows(start: int, dir: int, n: nat, r: nat)
    requires n > 0 && -1 <= start < n && (dir == 1 || dir == -1)
    requires start == -1 ==> dir == 1
    requires r < n
    ensures exists i :: 1 <= i <= n && Probe(start, dir, n, i) == r
  {
    var i := if dir == 1 then (if r > start then r - start else r - start + n)
             else (if r < start then start - r else start - r + n);
    assert Probe(start, dir, n, i) == r;
  }

  /** A match: how many rows were probed, the row and the offset of the query
      in the row's render. */
  datatype Match = Match(probe: nat, row: nat, offset: nat)

  /** The render buffers of the rows, which the search scans. */
  function Renders(rows: seq<Row>): seq<seq<Byte>>
  {
    seq(|rows|, i requires 0 <= i < |rows| => rows[i].render())
  }

  /** Rendered row r contains the query. */
  predicate Has(texts: seq<seq<Byte>>, r: nat, query: seq<Byte>)
    requires r < |texts|
  {
    StrStr(texts[r], query).Some?
  }

  /** None of the first i probes from start finds the query. */
  predicate Missed(texts: seq<seq<Byte>>, query: seq<Byte>, start: int, dir: int, i: nat)
    requires |texts| > 0 && -1 <= start < |texts| && (dir == 1 || dir == -1)
    requires start == -1 ==> dir == 1
    requires i <= |texts|
  {
    forall j :: 1 <= j <= i ==> !Has(texts, Probe(start, dir, |texts|, j), query)
  }

  /** The search loop of editorFindCallback over the rendered rows, after i
      of the n probes, with current the row probed last (start before the
      first probe). */
  function Scan(texts: seq<seq<Byte>>, query: seq<Byte>, start: int, dir: int, current: int, i: nat): (m: Option<Match>)
    requires |texts| > 0 && -1 <= start < |texts| && (dir == 1 || dir == -1)
    requires start == -1 ==> dir == 1
    requires i <= |texts|
    requires i == 0 ==> current == start
    requires i > 0 ==> current == Probe(start, dir, |texts|, i)
    ensures m.Some? ==> m.value.row < |texts| && StrStr(texts[m.value.row], query) == Some(m.value.offset)
    decreases |texts| - i
  {
    if i == |texts| then None
    else
      var c := Next(current, dir, |texts|);
      assert c == Probe(start, dir, |texts|, i + 1) by {
        if i > 0 { NextProbe(start, dir, |texts|, i); }
      }
      match StrStr(texts[c], query)
      case Some(off) => Some(Match(i + 1, c, off))
      case None => Scan(texts, query, start, dir, c, i + 1)
  }

  /** A scan that finds nothing has probed every remaining row in vain. */
  lemma {:induction false} ScanMissesAll(texts: seq<seq<Byte>>, query: seq<Byte>, start: int, dir: int, current: int, i: nat)
    requires |texts| > 0 && -1 <= start < |texts| && (dir == 1 || dir == -1)
    requires start == -1 ==> dir == 1
    requires i <= |texts|
    requires i == 0 ==> current == start
    requires i > 0 ==> current == Probe(start, dir, |texts|, i)
    requires Missed(texts, query, start, dir, i)
    requires Scan(texts, query, start, dir, current, i).None?
    ensures Missed(texts, query, start, dir, |texts|)
    decreases |texts| - i
  {
    if i < |texts| {
      var c := Next(current, dir, |texts|);
      if i > 0 { NextProbe(start, dir, |texts|, i); }
      assert c == Probe(start, dir, |texts|, i + 1);
      assert !Has(texts, c, query);
      assert Missed(texts, query, start, dir, i + 1);
      ScanMissesAll(texts, query, start, dir, c, i + 1);
    }
  }

  /** A scan that finds a row stops at the first probe that matches. */
  lemma {:induction false} ScanFindsFirst(texts: seq<seq<Byte>>, query: seq<Byte>, start: int, dir: int, current: int, i: nat)
    requires |texts| > 0 && -1 <= start < |texts| && (dir == 1 || dir == -1)
    requires start == -1 ==> dir == 1
    requires i <= |texts|
    requires i == 0 ==> current == start
    requires i > 0 ==> current == Probe(start, dir, |texts|, i)
    requires Missed(texts, query, start, dir, i)
    requires Scan(texts, query, start, dir, current, i).Some?
    ensures var m := Scan(texts, query, start, dir, current, i).value;
      i < m.probe <= |texts| && m.row == Probe(start, dir, |texts|, m.probe) && Missed(texts, query, start, dir, m.probe - 1)
    decreases |texts| - i
  {
    var c := Next(current, dir, |texts|);
    if i > 0 { NextProbe(start, dir, |texts|, i); }
    assert c == Probe(start, dir, |texts|, i + 1);
    if Has(texts, c, query) {
      var m := Scan(texts, query, start, dir, current, i).value;
      assert m.row == Probe(start, dir, |texts|, i + 1) && Missed(texts, query, start, dir, i);
    } else {
      assert Missed(texts, query, start, dir, i + 1);
      ScanFindsFirst(texts, query, start, dir, c, i + 1);
    }
  }

  /** The first rendered row in probe order from start that contains the
      query. None exactly when no row contains it. */
  function Search(texts: seq<seq<Byte>>, query: seq<Byte>, start: int, dir: int): (m: Option<Match>)
    requires -1 <= start < |texts| && (dir == 1 || dir == -1)
    requires start == -1 ==> dir == 1
    ensures m.None? <==> forall r :: 0 <= r < |texts| ==> !Has(texts, r, query)
    ensures m.Some? ==> m.value.row < |texts| && StrStr(texts[m.value.row], query) == Some(m.value.offset)
    ensures m.Some? ==>
      && 1 <= m.value.probe <= |texts|
      && m.value.row == Probe(start, dir, |texts|, m.value.probe)
      && Missed(texts, query, start, dir, m.value.probe - 1)
  {
    if |texts| == 0 then None
    else
      var m := Scan(texts, query, start, dir, start, 0);
      if m.None? then
        ScanMissesAll(texts, query, start, dir, start, 0);
        forall r | 0 <= r < |texts|
          ensures !Has(texts, r, query)
        {
          ProbesCoverRows(start, dir, |texts|, r);
        }
        m
      else
        ScanFindsFirst(texts, query, start, dir, start, 0);
        assert Has(texts, m.value.row, query);
        m
  }

  /** A search from no previous match scans the texts top to bottom, so it
      finds the first row that contains the query. */
  lemma FreshSearchFindsFirstRow(texts: seq<seq<Byte>>, query: seq<Byte>)
    requires Search(texts, query, -1, 1).Some?
    ensures var m := Search(texts, query, -1, 1).value;
      forall r :: 0 <= r < m.row ==> !Has(texts, r, query)
  {
    var m := Search(texts, query, -1, 1).value;
    forall r | 0 <= r < m.row
      ensures !Has(texts, r, query)
    {
      assert Probe(-1, 1, |texts|, r + 1) == r;
    }
  }

  /** The state the callback leaves for the next key: direction follows the
      arrow keys, any other key restarts the search, Enter and ESC end it. */
  function NextState(s: SearchState, key: Key): (s': SearchState)
    ensures key == Char(CR) || key == Char(ESC) || !IsArrow(key) ==> s' == INITIAL
    ensures IsArrow(key) ==> s'.lastMatch == s.lastMatch
    ensures IsArrow(key) && s.lastMatch == -1 ==> s'.direction == 1
    ensures IsArrow(key) && s.lastMatch != -1 ==>
      s'.direction == (if key == ArrowRight || key == ArrowDown then 1 else -1)
  {
    var s1 :=
      if key == Char(CR) || key == Char(ESC) then INITIAL
      else if key == ArrowRight || key == ArrowDown then s.(direction := 1)
      else if key == ArrowLeft || key == ArrowUp then s.(direction := -1)
      else INITIAL;
    if s1.lastMatch == -1 then s1.(direction := 1) else s1
  }

  /** editorFindCallback: on Enter or ESC reset the search; otherwise search
      from the last match in the chosen direction and, on a match, put the
      cursor on it and push rowoff past the end so that the next scroll puts
      the matching row at the top of the screen. */
  function FindCallback(e: Editor, s: SearchState, query: seq<Byte>, key: Key): (r: (Editor, SearchState))
    requires -1 <= s.lastMatch < |e.rows| && (s.direction == 1 || s.direction == -1)
    ensures -1 <= r.1.lastMatch < |r.0.rows| && (r.1.direction == 1 || r.1.direction == -1)
    ensures r.0 == e.(cx := r.0.cx, cy := r.0.cy, rowoff := r.0.rowoff)
    ensures key == Char(CR) || key == Char(ESC) ==> r == (e, INITIAL)
    ensures r.0 != e ==> r.0.CursorOk() && r.0.cy < |e.rows| && r.0.rowoff == |e.rows|
    ensures key != Char(CR) && key != Char(ESC) ==>
      var s1 := NextState(s, key);
      match Search(Renders(e.rows), query, s1.lastMatch, s1.direction)
      case None => r == (e, s1)
      case Some(m) =>
        && r.0 == JumpTo(e, m.row, m.offset)
        && r.0.cy == m.row && r.1 == s1.(lastMatch := m.row)
        && r.0.cx == RxToCx(e.rows[m.row].chars, m.offset)
        && (|query| > 0 ==> var chars := e.rows[m.row].chars;
             r.0.cx < |chars| && CxToRx(chars, r.0.cx) <= m.offset < CxToRx(chars, r.0.cx + 1))
  {
    if key == Char(CR) || key == Char(ESC) then (e, INITIAL)
    else
      var s1 := NextState(s, key);
      match Search(Renders(e.rows), query, s1.lastMatch, s1.direction)
      case None => (e, s1)
      case Some(m) =>
        assert |query| > 0 ==> m.offset < CxToRx(e.rows[m.row].chars, |e.rows[m.row].chars|);
        (JumpTo(e, m.row, m.offset), s1.(lastMatch := m.row))
  }

  /** The cursor move of a match: row row, the raw column holding rendered
      column offset, and rowoff past the last row. */
  function JumpTo(e: Editor, row: nat, offset: nat): (e': Editor)
    requires row < |e.rows|
    ensures e' == e.(cy := row, cx := e'.cx, rowoff := |e.rows|)
    ensures e'.cx == RxToCx(e.rows[row].chars, offset) && e'.CursorOk()
    ensures var chars := e.rows[row].chars;
      offset < CxToRx(chars, |chars|) ==>
        e'.cx < |chars| && CxToRx(chars, e'.cx) <= offset < CxToRx(chars, e'.cx + 1)
  {
    var chars := e.rows[row].chars;
    var e' := e.(cy := row, cx := RxToCx(chars, offset), rowoff := |e.rows|);
    if offset < CxToRx(chars, |chars|) then
      RxToCxCell(chars, offset);
      e'
    else e'
  }

  predicate ValidState(s: SearchState, n: nat)
  {
    -1 <= s.lastMatch < n && (s.direction == 1 || s.direction == -1)
  }

  predicate AllPrintable(buf: seq<Byte>)
  {
    forall i :: 0 <= i < |buf| ==> Printable(buf[i])
  }

  /** How a search prompt ended: the editor and search state after the last
      callback, and the string editorPrompt returned (empty when cancelled). */
  datatype SessionEnd = SessionEnd(editor: Editor, state: SearchState, query: seq<Byte>)

  /** editorPrompt driving editorFindCallback: each iteration redraws (which
      scrolls), reads a key, edits the buffer and calls the callback with the
      buffer and the key. None while the keys run out before ESC or a
      non-empty Enter. */
  function FindPrompt(e: Editor, s: SearchState, buf: seq<Byte>, keys: seq<Key>): (r: Option<SessionEnd>)
    requires e.CursorOk() && ValidState(s, |e.rows|) && AllPrintable(buf)
    ensures r.Some? <==> Prompt(buf, keys).Some?
    ensures r.Some? ==> r.value.query == Prompt(buf, keys).value
    ensures r.Some? ==> r.value.state == INITIAL
    ensures r.Some? ==> var e' := r.value.editor;
      e' == e.(cx := e'.cx, cy := e'.cy, rx := e'.rx, rowoff := e'.rowoff, coloff := e'.coloff)
    ensures r.Some? ==> r.value.editor.CursorOk()
    decreases |keys|
  {
    if |keys| == 0 then None
    else
      var e1 := Scroll(e);
      match PromptStep(buf, keys[0])
      case Cancelled =>
        var (e2, s2) := FindCallback(e1, s, buf, keys[0]);
        Some(SessionEnd(e2, s2, []))
      case Confirmed(text) =>
        var (e2, s2) := FindCallback(e1, s, buf, keys[0]);
        Some(SessionEnd(e2, s2, text))
      case Editing(next) =>
        var (e2, s2) := FindCallback(e1, s, next, keys[0]);
        FindPrompt(e2, s2, next, keys[1..])
  }


  /** editorFind as written: run the search prompt from a fresh search state,
      then put back the saved cursor and offsets when the query is non-empty
      and keep the search position when it is empty (cancelled). */
  function FindAsWritten(e: Editor, keys: seq<Key>): (r: Option<Editor>)
    requires e.CursorOk()
    ensures r.Some? <==> Prompt([], keys).Some?
    ensures r.Some? && |Prompt([], keys).value| > 0 ==>
      r.value.cx == e.cx && r.value.cy == e.cy && r.value.rowoff == e.rowoff && r.value.coloff == e.coloff
    ensures r.Some? && |Prompt([], keys).value| == 0 ==> r.value == FindPrompt(e, INITIAL, [], keys).value.editor
    ensures r.Some? ==> r.value.rows == e.rows && r.value.dirty == e.dirty
  {
    match FindPrompt(e, INITIAL, [], keys)
    case None => None
    case Some(end) =>
      var ed := end.editor;
      Some(if |end.query| == 0 then ed
           else ed.(cx := e.cx, cy := e.cy, coloff := e.coloff, rowoff := e.rowoff))
  }

  /** editorFind as evidently intended: a cancelled search (empty query) puts
      back the cursor and offsets saved before the search; a confirmed one
      leaves the cursor on the match. */
  function FindCorrected(e: Editor, keys: seq<Key>): (r: Option<Editor>)
    requires e.CursorOk()
    ensures r.Some? <==> Prompt([], keys).Some?
    ensures r.Some? && |Prompt([], keys).value| == 0 ==>
      r.value.cx == e.cx && r.value.cy == e.cy && r.value.rowoff == e.rowoff && r.value.coloff == e.coloff
    ensures r.Some? && |Prompt([], keys).value| > 0 ==> r.value == FindPrompt(e, INITIAL, [], keys).value.editor
    ensures r.Some? ==> r.value.rows == e.rows && r.value.dirty == e.dirty
  {
    match FindPrompt(e, INITIAL, [], keys)
    case None => None
    case Some(end) =>
      var ed := end.editor;
      Some(if |end.query| == 0 then ed.(cx := e.cx, cy := e.cy, coloff := e.coloff, rowoff := e.rowoff)
           else ed)
  }

  /** Cancelling a corrected search leaves the editor as it was before the
      search, except for the rendered column that redrawing recomputes. */
  lemma CancelledSearchRestores(e: Editor, keys: seq<Key>)
    requires e.CursorOk()
    requires Prompt([], keys) == Some([])
    ensures FindCorrected(e, keys).Some?
    ensures FindCorrected(e, keys).value == e.(rx := FindCorrected(e, keys).value.rx)
  {
  }

  /** Two rows "a" and "b", cursor at the top. */
  function TwoRows(): (e: Editor)
    ensures e.CursorOk()
  {
    Editor(0, 0, 0, 0, 0, 24, 80, [Row([0x61]), Row([0x62])], 0)
  }

  lemma RendersTwoRows()
    ensures Renders(TwoRows().rows) == [[0x61], [0x62]]
  {
    var texts := Renders(TwoRows().rows);
    RenderWithoutTabs([0x61]);
    RenderWithoutTabs([0x62]);
    assert texts[0] == [0x61] && texts[1] == [0x62];
  }

  lemma StrStrSingle()
    ensures StrStr([0x61], [0x62]) == None
    ensures StrStr([0x62], [0x62]) == Some(0)
  {
    var a: seq<Byte> := [0x61];
    var b: seq<Byte> := [0x62];
    assert a[0..1][0] != b[0];
    assert StrStrFrom(a, b, 1) == None;
    assert b[0..1] == b;
  }

  /** In "a", "b" a fresh search for "b" misses row 0 and finds row 1 at
      offset 0 on the second probe. */
  lemma SearchTwoRows()
    ensures Search(Renders(TwoRows().rows), [0x62], -1, 1) == Some(Match(2, 1, 0))
  {
    var texts: seq<seq<Byte>> := [[0x61], [0x62]];
    RendersTwoRows();
    StrStrSingle();
    var b: seq<Byte> := [0x62];
    assert Scan(texts, b, -1, 1, 0, 1) == Some(Match(2, 1, 0));
    assert Scan(texts, b, -1, 1, -1, 0) == Scan(texts, b, -1, 1, 0, 1);
  }

  /** Typing "b" into the search prompt over "a", "b" moves the cursor to
      row 1 and pushes rowoff past the last row, whatever key comes next. */
  lemma AfterTypingB(k: Key)
    ensures FindPrompt(TwoRows(), INITIAL, [], [Char(0x62), k])
         == FindPrompt(TwoRows().(cy := 1, rowoff := 2), SearchState(1, 1), [0x62], [k])
  {
    var e := TwoRows();
    var b: seq<Byte> := [0x62];
    assert PromptStep([], Char(0x62)) == Editing(b);
    assert Scroll(e) == e;
    SearchTwoRows();
    assert NextState(INITIAL, Char(0x62)) == INITIAL;
    assert RxToCx([0x62], 0) == 0;
    assert FindCallback(e, INITIAL, b, Char(0x62)) == (e.(cy := 1, rowoff := 2), SearchState(1, 1));
    assert [Char(0x62), k][1..] == [k];
  }

  /** Searching for "b" and pressing ESC: the code as written leaves the cursor
      on the match in row 1 although the search was cancelled. */
  lemma CancelKeepsMatchAsWritten()
    ensures FindAsWritten(TwoRows(), [Char(0x62), Char(ESC)]).Some?
    ensures FindAsWritten(TwoRows(), [Char(0x62), Char(ESC)]).value.cy == 1
    ensures FindCorrected(TwoRows(), [Char(0x62), Char(ESC)]).value.cy == 0
  {
    var e2 := TwoRows().(cy := 1, rowoff := 2);
    var b: seq<Byte> := [0x62];
    AfterTypingB(Char(ESC));
    assert PromptStep(b, Char(ESC)) == Cancelled;
    assert FindPrompt(e2, SearchState(1, 1), b, [Char(ESC)]) == Some(SessionEnd(Scroll(e2), INITIAL, []));
  }

  /** Searching for "b" and pressing Enter: the code as written moves the
      cursor back to row 0, discarding the confirmed match. */
  lemma ConfirmDiscardsMatchAsWritten()
    ensures FindAsWritten(TwoRows(), [Char(0x62), Char(CR)]).Some?
    ensures FindAsWritten(TwoRows(), [Char(0x62), Char(CR)]).value.cy == 0
    ensures FindCorrected(TwoRows(), [Char(0x62), Char(CR)]).value.cy == 1
  {
    var e2 := TwoRows().(cy := 1, rowoff := 2);
    var b: seq<Byte> := [0x62];
    AfterTypingB(Char(CR));
    assert PromptStep(b, Char(CR)) == Confirmed(b);
    assert FindPrompt(e2, SearchState(1, 1), b, [Char(CR)]) == Some(SessionEnd(Scroll(e2), INITIAL, b));
  }
}

=== FILE: input.dfy ===
/**
 * Keyboard handling of kilo.cpp: cursor movement (editorMoveCursor), one
 * step of the status-bar prompt (editorPrompt) and the key dispatcher
 * (editorProcessKeypress), including the Ctrl-Q confirmation counter.
 */
module Input {
  import opened Bytes
  import opened Rows
  import opened Editing
  import opened Terminal

  const CTRL_F: Byte := 6   // CTRL_KEY('f')
  const CTRL_H: Byte := 8   // CTRL_KEY('h')
  const CTRL_L: Byte := 12  // CTRL_KEY('l')
  const CTRL_Q: Byte := 17  // CTRL_KEY('q')
  const CTRL_S: Byte := 19  // CTRL_KEY('s')

  /** The command bytes are the CTRL_KEY values of their letters. */
  lemma ControlBytes()
    ensures CTRL_F == CtrlKey(0x66) && CTRL_H == CtrlKey(0x68) && CTRL_L == CtrlKey(0x6C)
    ensures CTRL_Q == CtrlKey(0x71) && CTRL_S == CtrlKey(0x73)
  {
  }

  /** KILO_QUIT_TIMES: extra Ctrl-Q presses needed to quit with unsaved changes. */
  const QUIT_TIMES: nat := 3

  predicate IsArrow(key: Key)
  {
    key == ArrowLeft || key == ArrowRight || key == ArrowUp || key == ArrowDown
  }

  /** The cursor column clamped to the length of row cy (0 past the last row). */
  function ClampCx(e: Editor): (e': Editor)
    ensures e' == e.(cx := e'.cx)
    ensures e'.cx <= e.RowLen()
    ensures e.cx <= e.RowLen() ==> e' == e
    ensures e.cx > e.RowLen() ==> e'.cx == e.RowLen()
  {
    if e.cx > e.RowLen() then e.(cx := e.RowLen()) else e
  }

  /** editorMoveCursor: move one step for an arrow key, wrapping Left and Right
      across line ends, then clamp cx to the length of the new row. Left at
      column 0 reads the previous row, so that row must exist. */
  function MoveCursor(e: Editor, key: Key): (e': Editor)
    requires key == ArrowLeft && e.cx == 0 && e.cy > 0 ==> e.cy <= |e.rows|
    ensures e' == e.(cx := e'.cx, cy := e'.cy)
    ensures e'.cx <= e'.RowLen()
    ensures e.cy <= |e.rows| ==> e'.CursorOk()
    ensures key == ArrowLeft && e.cx > 0 ==> e'.cy == e.cy && e'.cx == Clamp(e.cx - 1, e.RowLen())
    ensures key == ArrowLeft && e.cx == 0 && e.cy > 0 ==>
      e'.cy == e.cy - 1 && e'.cx == |e.rows[e.cy - 1].chars|
    ensures key == ArrowLeft && e.cx == 0 && e.cy == 0 ==> e' == e
    ensures key == ArrowRight && e.cy < |e.rows| && e.cx < |e.rows[e.cy].chars| ==>
      e'.cy == e.cy && e'.cx == e.cx + 1
    ensures key == ArrowRight && e.cy < |e.rows| && e.cx == |e.rows[e.cy].chars| ==>
      e'.cy == e.cy + 1 && e'.cx == 0
    ensures key == ArrowRight && (e.cy >= |e.rows| || e.cx > |e.rows[e.cy].chars|) ==> e' == ClampCx(e)
    ensures key == ArrowUp ==> e'.cy == (if e.cy > 0 then e.cy - 1 else 0) && e'.cx == Clamp(e.cx, e'.RowLen())
    ensures key == ArrowDown ==>
      e'.cy == (if e.cy < |e.rows| then e.cy + 1 else e.cy) && e'.cx == Clamp(e.cx, e'.RowLen())
    ensures !IsArrow(key) ==> e' == ClampCx(e)
  {
    ClampCx(Moved(e, key))
  }

  /** The switch of editorMoveCursor, before the final clamp. */
  function Moved(e: Editor, key: Key): (e': Editor)
    requires key == ArrowLeft && e.cx == 0 && e.cy > 0 ==> e.cy <= |e.rows|
    ensures e' == e.(cx := e'.cx, cy := e'.cy)
    ensures e.cy <= |e.rows| ==> e'.cy <= |e.rows|
    ensures key == ArrowLeft && e.cx != 0 ==> e' == e.(cx := e.cx - 1)
    ensures key == ArrowLeft && e.cx == 0 && e.cy > 0 ==>
      e' == e.(cy := e.cy - 1, cx := |e.rows[e.cy - 1].chars|)
    ensures key == ArrowLeft && e.cx == 0 && e.cy == 0 ==> e' == e
    ensures key == ArrowRight && e.cy < |e.rows| && e.cx < |e.rows[e.cy].chars| ==> e' == e.(cx := e.cx + 1)
    ensures key == ArrowRight && e.cy < |e.rows| && e.cx == |e.rows[e.cy].chars| ==>
      e' == e.(cy := e.cy + 1, cx := 0)
    ensures key == ArrowRight && (e.cy >= |e.rows| || e.cx > |e.rows[e.cy].chars|) ==> e' == e
    ensures key == ArrowUp ==> e' == e.(cy := if e.cy > 0 then e.cy - 1 else 0)
    ensures key == ArrowDown ==> e' == e.(cy := if e.cy < |e.rows| then e.cy + 1 else e.cy)
    ensures !IsArrow(key) ==> e' == e
  {
    match key
    case ArrowLeft =>
      if e.cx != 0 then e.(cx := e.cx - 1)
      else if e.cy > 0 then e.(cy := e.cy - 1, cx := |e.rows[e.cy - 1].chars|)
      else e
    case ArrowRight =>
      if e.cy < |e.rows| && e.cx < |e.rows[e.cy].chars| then e.(cx := e.cx + 1)
      else if e.cy < |e.rows| && e.cx == |e.rows[e.cy].chars| then e.(cy := e.cy + 1, cx := 0)
      else e
    case ArrowUp => if e.cy != 0 then e.(cy := e.cy - 1) else e
    case ArrowDown => if e.cy < |e.rows| then e.(cy := e.cy + 1) else e
    case _ => e
  }

  function Clamp(x: nat, bound: nat): nat { if x > bound then bound else x }

  /** Right then Left returns to the same position on any row. */
  lemma LeftUndoesRight(e: Editor)
    requires e.CursorOk() && e.cy < |e.rows|
    ensures MoveCursor(MoveCursor(e, ArrowRight), ArrowLeft) == e
  {
  }

  /** Left then Right returns to the same position anywhere but the very start
      of the document. */
  lemma RightUndoesLeft(e: Editor)
    requires e.CursorOk() && (e.cx > 0 || e.cy > 0)
    ensures MoveCursor(MoveCursor(e, ArrowLeft), ArrowRight) == e
  {
  }

  /** Moving the cursor visits every valid position: Right from any valid
      position reaches the next one in reading order. */
  lemma RightAdvancesInReadingOrder(e: Editor)
    requires e.CursorOk() && e.cy < |e.rows|
    ensures var e' := MoveCursor(e, ArrowRight);
      (e'.cy == e.cy && e'.cx == e.cx + 1) || (e'.cy == e.cy + 1 && e'.cx == 0)
  {
  }

  /** iscntrl in the C locale: the bytes below the space, and DEL. */
  predicate IsCntrl(b: Byte)
  {
    b < SPACE || b == BACKSPACE
  }

  /** Bytes the prompt accepts into its buffer: exactly the visible ASCII
      characters and the space. */
  function Printable(b: Byte): (r: bool)
    ensures r <==> SPACE <= b <= TILDE
  {
    !IsCntrl(b) && b < 128
  }

  /** What one key does to the prompt. */
  datatype PromptResult =
    | Cancelled                  // ESC: the prompt returns the empty string
    | Confirmed(text: seq<Byte>) // Enter on a non-empty buffer: the prompt returns it
    | Editing(buf: seq<Byte>)    // the prompt goes on with this buffer

  predicate IsErase(key: Key)
  {
    key == DelKey || key == Char(CTRL_H) || key == Char(BACKSPACE)
  }

  /** One iteration of editorPrompt's loop after a key is read. */
  function PromptStep(buf: seq<Byte>, key: Key): (r: PromptResult)
    ensures r.Cancelled? <==> key == Char(ESC)
    ensures r.Confirmed? <==> key == Char(CR) && |buf| > 0
    ensures r.Confirmed? ==> r.text == buf
    ensures r.Editing? && IsErase(key) ==> r.buf == (if |buf| == 0 then buf else buf[..|buf| - 1])
    ensures r.Editing? && key.Char? && Printable(key.b) ==> r.buf == buf + [key.b]
    ensures r.Editing? && !IsErase(key) && !(key.Char? && Printable(key.b)) ==> r.buf == buf
    ensures r.Editing? && (forall i :: 0 <= i < |buf| ==> Printable(buf[i])) ==>
      forall i :: 0 <= i < |r.buf| ==> Printable(r.buf[i])
  {
    if key == Char(ESC) then Cancelled
    else if key == Char(CR) then
      if |buf| > 0 then Confirmed(buf) else Editing(buf)
    else if IsErase(key) then
      Editing(if |buf| == 0 then buf else buf[..|buf| - 1])
    else if key.Char? && Printable(key.b) then Editing(buf + [key.b])
    else Editing(buf)
  }

  /** Typing a printable byte and erasing it leaves the prompt buffer as it was. */
  lemma PromptTypeThenErase(buf: seq<Byte>, b: Byte, erase: Key)
    requires Printable(b) && IsErase(erase)
    ensures PromptStep(buf, Char(b)) == Editing(buf + [b])
    ensures PromptStep(PromptStep(buf, Char(b)).buf, erase) == Editing(buf)
  {
    assert (buf + [b])[..|buf|] == buf;
  }

  /** The prompt runs over keys until ESC or a non-empty Enter; None while it is
      still waiting for more keys. The buffer holds printable bytes only. */
  function Prompt(buf: seq<Byte>, keys: seq<Key>): (r: Option<seq<Byte>>)
    requires forall i :: 0 <= i < |buf| ==> Printable(buf[i])
    ensures r.Some? ==> forall i :: 0 <= i < |r.value| ==> Printable(r.value[i])
    ensures r.Some? && |r.value| == 0 ==> Char(ESC) in keys
    ensures r.Some? && |r.value| > 0 ==> Char(CR) in keys
    ensures Char(ESC) in keys ==> r.Some?
    decreases |keys|
  {
    if |keys| == 0 then None
    else match PromptStep(buf, keys[0])
      case Cancelled => Some([])
      case Confirmed(text) => Some(text)
      case Editing(next) =>
        var r := Prompt(next, keys[1..]);
        assert r.Some? && |r.value| == 0 ==> Char(ESC) in keys[1..];
        assert r.Some? && |r.value| > 0 ==> Char(CR) in keys[1..];
        assert Char(ESC) in keys ==> Char(ESC) in keys[1..] by {
          assert keys == [keys[0]] + keys[1..];
        }
        r
  }

  /** What editorProcessKeypress leads to besides the new state. */
  datatype Outcome =
    | Continue
    | QuitWarning(remaining: nat)  // the "Press Ctrl-Q n more times" message
    | Exit                         // the process exits
    | SaveRequested                // editorSave runs (file I/O)
    | FindRequested                // editorFind runs (an interactive prompt)

  /** The state after a keypress: the editor and the Ctrl-Q counter. */
  datatype Step = Step(editor: Editor, quitTimes: nat, outcome: Outcome)

  /** The length of row y, and 0 for the line just past the last row. */
  function LenAt(rows: seq<Row>, y: nat): nat
  {
    if y < |rows| then |rows[y].chars| else 0
  }

  /** The cursor passes row y on its way from row `from` to row `to`; `from`
      itself counts only when the cursor ends there. */
  predicate Passed(y: nat, from: nat, to: nat)
  {
    y == to || from < y <= to || to <= y < from
  }

  /** The row PageUp / PageDown first puts the cursor on: the top screen line,
      or the bottom one (clamped to the line past the last row). */
  function PageTop(e: Editor, up: bool): nat
  {
    if up then e.rowoff else Clamp(e.rowoff + e.screenrows - 1, |e.rows|)
  }

  /** PageUp / PageDown: put the cursor at the top or bottom screen line, then
      move a screenful up or down. Each step trims cx to the row it reaches, so
      cx ends as the shortest of its old value and the rows passed. */
  function PageMove(e: Editor, up: bool): (e': Editor)
    ensures e' == e.(cx := e'.cx, cy := e'.cy)
    ensures up ==> e'.cy == (if e.rowoff > e.screenrows then e.rowoff - e.screenrows else 0)
    ensures !up ==> e'.cy == Clamp(e.rowoff + 2 * e.screenrows - 1, |e.rows|)
    ensures e.rowoff <= |e.rows| ==> e'.CursorOk()
    ensures e'.cx <= e.cx
    ensures forall y :: Passed(y, PageTop(e, up), e'.cy) ==> e'.cx <= LenAt(e.rows, y)
    ensures e'.cx == e.cx || exists y :: Passed(y, PageTop(e, up), e'.cy) && e'.cx == LenAt(e.rows, y)
    ensures (forall y :: Passed(y, PageTop(e, up), e'.cy) ==> e.cx <= LenAt(e.rows, y)) ==> e'.cx == e.cx
  {
    RepeatMove(e.(cy := PageTop(e, up)), if up then ArrowUp else ArrowDown, e.screenrows)
  }

  /** n calls of editorMoveCursor with the same vertical arrow. cx never grows:
      it ends as the shortest of its old value and the rows passed. */
  function RepeatMove(e: Editor, key: Key, n: nat): (e': Editor)
    requires key == ArrowUp || key == ArrowDown
    ensures e' == e.(cx := e'.cx, cy := e'.cy)
    ensures key == ArrowUp ==> e'.cy == (if e.cy > n then e.cy - n else 0)
    ensures key == ArrowDown && e.cy <= |e.rows| ==> e'.cy == Clamp(e.cy + n, |e.rows|)
    ensures key == ArrowDown && e.cy > |e.rows| ==> e'.cy == e.cy
    ensures n > 0 ==> e'.cx <= e'.RowLen()
    ensures e.CursorOk() || (n > 0 && e.cy <= |e.rows|) ==> e'.CursorOk()
    ensures e'.cx <= e.cx
    ensures n > 0 ==> forall y :: Passed(y, e.cy, e'.cy) ==> e'.cx <= LenAt(e.rows, y)
    ensures n > 0 ==> e'.cx == e.cx || exists y :: Passed(y, e.cy, e'.cy) && e'.cx == LenAt(e.rows, y)
    ensures (forall y :: Passed(y, e.cy, e'.cy) ==> e.cx <= LenAt(e.rows, y)) ==> e'.cx == e.cx
    decreases n
  {
    if n == 0 then e
    else
      var next := MoveCursor(e, key);
      var e' := RepeatMove(next, key, n - 1);
      PassedStep(e.cy, next.cy, e'.cy);
      assert next.cx == Clamp(e.cx, LenAt(e.rows, next.cy));
      e'
  }

  /** One step from `from` to the adjacent row `mid`, on the way to `to`: the
      rows passed are `mid` and those passed from `mid` on. */
  lemma PassedStep(from: nat, mid: nat, to: nat)
    requires from < mid <= to || to <= mid < from || from == mid == to
    requires mid == from + 1 || mid + 1 == from || mid == from
    ensures forall y :: Passed(y, from, to) <==> y == mid || Passed(y, mid, to)
  {
  }

  /** Keys that only move the cursor or hand over to another part of the
      editor, leaving the document alone. */
  predicate IsNavigation(key: Key)
  {
    || IsArrow(key) || key == HomeKey || key == EndKey || key == PageUp || key == PageDown
    || key == Char(CTRL_Q) || key == Char(CTRL_S) || key == Char(CTRL_F)
    || key == Char(CTRL_L) || key == Char(ESC)
  }

  /** Bytes editorProcessKeypress treats as commands rather than text. */
  predicate IsCommandByte(b: Byte)
  {
    b == CR || b == CTRL_Q || b == CTRL_S || b == BACKSPACE || b == CTRL_H
    || b == CTRL_F || b == CTRL_L || b == ESC
  }

  /** The switch of editorProcessKeypress for a plain byte other than Ctrl-Q. */
  function DispatchByte(e: Editor, c: Byte): (r: (Editor, Outcome))
    requires e.CursorOk() && c != CTRL_Q
    ensures r.1 == (if c == CTRL_S then SaveRequested else if c == CTRL_F then FindRequested else Continue)
    ensures r.0.CursorOk()
    ensures c == CTRL_S || c == CTRL_F || c == CTRL_L || c == ESC ==> r.0 == e
    ensures c == CR ==> r.0 == InsertNewline(e)
    ensures c == BACKSPACE || c == CTRL_H ==> r.0 == DelChar(e)
    ensures !IsCommandByte(c) ==> r.0 == InsertChar(e, c)
  {
    if c == CR then (InsertNewline(e), Continue)
    else if c == CTRL_S then (e, SaveRequested)
    else if c == BACKSPACE || c == CTRL_H then (DelChar(e), Continue)
    else if c == CTRL_F then (e, FindRequested)
    else if c == CTRL_L || c == ESC then (e, Continue)
    else (InsertChar(e, c), Continue)
  }

  /** The switch of editorProcessKeypress for an editorKey code. */
  function DispatchSpecial(e: Editor, key: Key): (e': Editor)
    requires e.CursorOk() && !key.Char?
    ensures e.rowoff <= |e.rows| ==> e'.CursorOk()
    ensures key != DelKey ==> e' == e.(cx := e'.cx, cy := e'.cy)
    ensures key == DelKey ==> e' == DelChar(MoveCursor(e, ArrowRight))
    ensures key == HomeKey ==> e' == e.(cx := 0)
    ensures key == EndKey ==> e'.cy == e.cy && e'.cx == e.RowLen()
    ensures key == PageUp || key == PageDown ==> e' == PageMove(e, key == PageUp)
    ensures IsArrow(key) ==> e' == MoveCursor(e, key)
  {
    if key == DelKey then DelChar(MoveCursor(e, ArrowRight))
    else Navigate(e, key)
  }

  /** The cases of that switch that only move the cursor. */
  function Navigate(e: Editor, key: Key): (e': Editor)
    requires e.CursorOk() && !key.Char? && key != DelKey
    ensures e.rowoff <= |e.rows| ==> e'.CursorOk()
    ensures e' == e.(cx := e'.cx, cy := e'.cy)
    ensures key == HomeKey ==> e' == e.(cx := 0)
    ensures key == EndKey ==> e'.cy == e.cy && e'.cx == e.RowLen()
    ensures key == PageUp || key == PageDown ==> e' == PageMove(e, key == PageUp)
    ensures IsArrow(key) ==> e' == MoveCursor(e, key)
  {
    if key == HomeKey then e.(cx := 0)
    else if key == EndKey then (if e.cy < |e.rows| then e.(cx := |e.rows[e.cy].chars|) else e)
    else if key == PageUp || key == PageDown then PageMove(e, key == PageUp)
    else MoveCursor(e, key)
  }

  /** The switch of editorProcessKeypress for every key but Ctrl-Q. */
  function Dispatch(e: Editor, key: Key): (r: (Editor, Outcome))
    requires e.CursorOk() && key != Char(CTRL_Q)
    ensures r.1 == SaveRequested <==> key == Char(CTRL_S)
    ensures r.1 == FindRequested <==> key == Char(CTRL_F)
    ensures r.1 == Continue || r.1 == SaveRequested || r.1 == FindRequested
    ensures e.rowoff <= |e.rows| ==> r.0.CursorOk()
    ensures IsNavigation(key) ==> r.0 == e.(cx := r.0.cx, cy := r.0.cy)
    ensures !key.Char? && key != DelKey ==> r.0 == Navigate(e, key) && r.1 == Continue
    ensures key == Char(CTRL_S) || key == Char(CTRL_F) || key == Char(CTRL_L) || key == Char(ESC) ==> r.0 == e
    ensures key == Char(CR) ==> r.0 == InsertNewline(e)
    ensures key == Char(BACKSPACE) || key == Char(CTRL_H) ==> r.0 == DelChar(e)
    ensures key == DelKey ==> r.0 == DelChar(MoveCursor(e, ArrowRight))
    ensures key.Char? && !IsCommandByte(key.b) ==> r.0 == InsertChar(e, key.b)
  {
    if key.Char? then DispatchByte(e, key.b)
    else (DispatchSpecial(e, key), Continue)
  }

  /** editorProcessKeypress for one key. Every key but Ctrl-Q re-arms the quit
      counter. */
  function ProcessKeypress(e: Editor, quitTimes: nat, key: Key): (s: Step)
    requires e.CursorOk()
    ensures s.outcome == Exit <==> key == Char(CTRL_Q) && (e.dirty == 0 || quitTimes == 0)
    ensures s.outcome.QuitWarning? <==> key == Char(CTRL_Q) && e.dirty > 0 && quitTimes > 0
    ensures s.outcome.QuitWarning? ==>
      s.editor == e && s.outcome.remaining == quitTimes && s.quitTimes == quitTimes - 1
    ensures s.outcome == Exit ==> s.editor == e
    ensures s.outcome == SaveRequested <==> key == Char(CTRL_S)
    ensures s.outcome == FindRequested <==> key == Char(CTRL_F)
    ensures key != Char(CTRL_Q) ==> s.quitTimes == QUIT_TIMES
    ensures e.rowoff <= |e.rows| ==> s.editor.CursorOk()
    ensures IsNavigation(key) ==> s.editor == e.(cx := s.editor.cx, cy := s.editor.cy)
    ensures !key.Char? && key != DelKey ==> s.editor == Navigate(e, key) && s.outcome == Continue
    ensures key == Char(CTRL_S) || key == Char(CTRL_F) || key == Char(CTRL_L) || key == Char(ESC) ==> s.editor == e
    ensures key == Char(CR) ==> s.editor == InsertNewline(e)
    ensures key == Char(BACKSPACE) || key == Char(CTRL_H) ==> s.editor == DelChar(e)
    ensures key == DelKey ==> s.editor == DelChar(MoveCursor(e, ArrowRight))
    ensures key.Char? && !IsCommandByte(key.b) ==> s.editor == InsertChar(e, key.b) && s.outcome == Continue
  {
    if key == Char(CTRL_Q) then
      if e.dirty > 0 && quitTimes > 0 then Step(e, quitTimes - 1, QuitWarning(quitTimes))
      else Step(e, quitTimes, Exit)
    else
      var (e', outcome) := Dispatch(e, key);
      Step(e', QUIT_TIMES, outcome)
  }
}

=== FILE: output.dfy ===
/**
 * Output side of kilo.cpp: editorScroll, which keeps the cursor inside the
 * viewport, and editorDrawRows, which builds the text rows of one frame.
 */
module Output {
  import opened Bytes
  import opened Rows
  import opened Editing

  function Min(a: int, b: int): int { if a < b then a else b }
  function Max(a: int, b: int): int { if a < b then b else a }

  /** The rendered column of the cursor, 0 past the last row: on a row it is
      at least cx and within the render, strictly so when cx is inside the row. */
  function CursorRx(e: Editor): (rx: nat)
    requires e.cy < |e.rows| ==> e.cx <= |e.rows[e.cy].chars|
    ensures e.cy >= |e.rows| ==> rx == 0
    ensures e.cy < |e.rows| ==> e.cx <= rx <= |e.rows[e.cy].render()|
    ensures e.cy < |e.rows| && e.cx < |e.rows[e.cy].chars| ==> rx < |e.rows[e.cy].render()|
  {
    if e.cy < |e.rows| then
      var chars := e.rows[e.cy].chars;
      CxToRxMonotone(chars, e.cx, |chars|);
      assert e.cx < |chars| ==> CxToRx(chars, e.cx) < CxToRx(chars, |chars|) by {
        if e.cx < |chars| {
          CxToRxIncreasing(chars, e.cx, |chars|);
        }
      }
      CxToRx(chars, e.cx)
    else 0
  }

  /** editorScroll: compute rx and pull the offsets so that the cursor is on
      screen, moving them as little as possible. */
  function Scroll(e: Editor): (e': Editor)
    requires e.cy < |e.rows| ==> e.cx <= |e.rows[e.cy].chars|
    ensures e' == e.(rx := e'.rx, rowoff := e'.rowoff, coloff := e'.coloff)
    ensures e'.rx == CursorRx(e)
    ensures e'.rowoff <= e.cy < e'.rowoff + e.screenrows
    ensures e'.coloff <= e'.rx < e'.coloff + e.screencols
    ensures e.rowoff <= e.cy < e.rowoff + e.screenrows ==> e'.rowoff == e.rowoff
    ensures e.coloff <= e'.rx < e.coloff + e.screencols ==> e'.coloff == e.coloff
    ensures e.cy < e.rowoff ==> e'.rowoff == e.cy
    ensures e.cy >= e.rowoff + e.screenrows ==> e'.rowoff + e.screenrows == e.cy + 1
    ensures e'.rx < e.coloff ==> e'.coloff == e'.rx
    ensures e'.rx >= e.coloff + e.screencols ==> e'.coloff + e.screencols == e'.rx + 1
  {
    var rx := CursorRx(e);
    var rowoff := if e.cy < e.rowoff then e.cy else e.rowoff;
    var rowoff := if e.cy >= rowoff + e.screenrows then e.cy - e.screenrows + 1 else rowoff;
    var coloff := if rx < e.coloff then rx else e.coloff;
    var coloff := if rx >= coloff + e.screencols then rx - e.screencols + 1 else coloff;
    e.(rx := rx, rowoff := rowoff, coloff := coloff)
  }

  /** Scrolling a second time changes nothing. */
  lemma ScrollIdempotent(e: Editor)
    requires e.cy < |e.rows| ==> e.cx <= |e.rows[e.cy].chars|
    ensures Scroll(Scroll(e)) == Scroll(e)
  {
  }

  /** After scrolling, the cursor's rendered column is inside the rendered row
      (or at its end), so drawing the row shows the cursor's cell. */
  lemma ScrollCursorOnRenderedRow(e: Editor)
    requires e.CursorOk() && e.cy < |e.rows|
    ensures Scroll(e).rx <= |e.rows[e.cy].render()|
    ensures e.cx < |e.rows[e.cy].chars| ==> Scroll(e).rx < |e.rows[e.cy].render()|
  {
    var chars := e.rows[e.cy].chars;
    CxToRxMonotone(chars, e.cx, |chars|);
    if e.cx < |chars| {
      CxToRxIncreasing(chars, e.cx, |chars|);
    }
  }

  /** "Kilo editor -- version 0.0.1", the banner of an empty document. */
  const WELCOME: seq<Byte> := [
    0x4B, 0x69, 0x6C, 0x6F, 0x20, 0x65, 0x64, 0x69, 0x74, 0x6F, 0x72, 0x20, 0x2D, 0x2D,
    0x20, 0x76, 0x65, 0x72, 0x73, 0x69, 0x6F, 0x6E, 0x20, 0x30, 0x2E, 0x30, 0x2E, 0x31]

  /** "\x1b[K\r\n": clear to end of line, then the next line. */
  const LINE_END: seq<Byte> := [ESC, 0x5B, 0x4B, CR, NEWLINE]

  /** The welcome banner for a screen screencols wide, centred with a leading '~'. */
  function Welcome(screencols: Dim): (line: seq<Byte>)
    ensures |line| <= screencols
    ensures var len := Min(|WELCOME|, screencols);
      var padding := (screencols - len) / 2;
      && |line| == padding + len
      && line[padding..] == WELCOME[..len]
      && (padding > 0 ==> line[0] == TILDE)
      && (forall i :: 0 < i < padding ==> line[i] == SPACE)
  {
    var len := Min(|WELCOME|, screencols);
    var padding := (screencols - len) / 2;
    var lead := if padding > 0 then [TILDE] + Spaces(padding - 1) else [];
    lead + WELCOME[..len]
  }

  /** One text row of the frame, the y-th line of the screen (before the
      clear-to-end-of-line and the line break). */
  function DrawLine(e: Editor, y: nat): (line: seq<Byte>)
    ensures |line| <= e.screencols
    ensures y + e.rowoff < |e.rows| ==>
      var render := e.rows[y + e.rowoff].render();
      && |line| == Min(Max(|render| - e.coloff, 0), e.screencols)
      && (forall i :: 0 <= i < |line| ==> line[i] == render[e.coloff + i])
    ensures y + e.rowoff >= |e.rows| && !(|e.rows| == 0 && y == e.screenrows / 3) ==> line == [TILDE]
    ensures y + e.rowoff >= |e.rows| && |e.rows| == 0 && y == e.screenrows / 3 ==> line == Welcome(e.screencols)
  {
    var filerow := y + e.rowoff;
    if filerow >= |e.rows| then
      if |e.rows| == 0 && y == e.screenrows / 3 then Welcome(e.screencols) else [TILDE]
    else
      var render := e.rows[filerow].render();
      var len := Min(Max(|render| - e.coloff, 0), e.screencols);
      if len == 0 then [] else render[e.coloff..e.coloff + len]
  }

  /** The most bytes one screen line takes, line end included. */
  function LineWidth(e: Editor): nat
  {
    e.screencols + |LINE_END|
  }

  /** The screen lines of the frame, top to bottom. */
  function ScreenLines(e: Editor): seq<seq<Byte>>
  {
    seq(e.screenrows, y requires 0 <= y => DrawLine(e, y))
  }

  /** Lines laid out one after another, each followed by the clear-to-end-of-line
      and the line break. */
  function Frame(lines: seq<seq<Byte>>): seq<Byte>
  {
    if |lines| == 0 then [] else lines[0] + LINE_END + Frame(lines[1..])
  }

  /** A frame of lines that each fit in w bytes with their line end takes at
      most one w per line. */
  lemma {:induction false} FrameLength(lines: seq<seq<Byte>>, w: nat)
    requires forall i :: 0 <= i < |lines| ==> |lines[i]| + |LINE_END| <= w
    ensures |Frame(lines)| <= Lines(|lines|, w)
    decreases |lines|
  {
    if |lines| > 0 {
      FrameLength(lines[1..], w);
    }
  }

  /** ab holds l at offset o. */
  predicate HoldsAt(ab: seq<Byte>, o: nat, l: seq<Byte>)
  {
    o + |l| <= |ab| && ab[o..o + |l|] == l
  }

  /** Line i of a frame sits after the lines above it, followed by its line end. */
  lemma {:induction false} FrameLayout(lines: seq<seq<Byte>>, i: nat)
    requires i < |lines|
    ensures HoldsAt(Frame(lines), |Frame(lines[..i])|, lines[i] + LINE_END)
    decreases i
  {
    var head := lines[0] + LINE_END;
    assert Frame(lines) == head + Frame(lines[1..]);
    if i == 0 {
      assert lines[..0] == [];
      assert (head + Frame(lines[1..]))[0..|head|] == head;
    } else {
      FrameLayout(lines[1..], i - 1);
      assert lines[..i][1..] == lines[1..][..i - 1];
      assert Frame(lines[..i]) == head + Frame(lines[1..][..i - 1]);
      HoldsAtAfter(head, Frame(lines[1..]), |Frame(lines[1..][..i - 1])|, lines[i] + LINE_END);
    }
  }

  /** A frame ends right after the line end of its last line. */
  lemma {:induction false} FrameSnoc(lines: seq<seq<Byte>>, l: seq<Byte>)
    ensures Frame(lines + [l]) == Frame(lines) + l + LINE_END
    decreases |lines|
  {
    if |lines| == 0 {
      assert lines + [l] == [l];
      assert [l][1..] == [];
    } else {
      assert (lines + [l])[1..] == lines[1..] + [l];
      FrameSnoc(lines[1..], l);
    }
  }

  /** What b holds at o, a + b holds at |a| + o. */
  lemma HoldsAtAfter(a: seq<Byte>, b: seq<Byte>, o: nat, l: seq<Byte>)
    requires HoldsAt(b, o, l)
    ensures HoldsAt(a + b, |a| + o, l)
  {
    assert (a + b)[|a| + o..|a| + o + |l|] == b[o..o + |l|];
  }

  /** The room n screen lines of width w take: n * w, counted line by line. */
  function Lines(n: nat, w: nat): nat
  {
    if n == 0 then 0 else w + Lines(n - 1, w)
  }

  lemma {:induction false} LinesIsProduct(n: nat, w: nat)
    ensures Lines(n, w) == n * w
  {
    if n > 0 {
      LinesIsProduct(n - 1, w);
      assert n * w == (n - 1) * w + w;
    }
  }

  /** editorDrawRows: screenrows lines, none wider than the screen. */
  function DrawRows(e: Editor): (ab: seq<Byte>)
    ensures |ab| <= e.screenrows * LineWidth(e)
  {
    var lines := ScreenLines(e);
    FrameLength(lines, LineWidth(e));
    LinesIsProduct(e.screenrows, LineWidth(e));
    Frame(lines)
  }

  /** Screen line y of the frame holds DrawLine(e, y) and the line end, after
      the lines above it; the last screen line's line end closes the frame. */
  lemma DrawRowsLayout(e: Editor, y: nat)
    requires y < e.screenrows
    ensures var lines := ScreenLines(e);
      HoldsAt(DrawRows(e), |Frame(lines[..y])|, DrawLine(e, y) + LINE_END)
    ensures var lines := ScreenLines(e);
      y == e.screenrows - 1 ==> |DrawRows(e)| == |Frame(lines[..y])| + |DrawLine(e, y) + LINE_END|
  {
    var lines := ScreenLines(e);
    FrameLayout(lines, y);
    if y == e.screenrows - 1 {
      assert lines == lines[..y] + [lines[y]];
      FrameSnoc(lines[..y], lines[y]);
    }
  }
}

=== FILE: rows.dfy ===
/**
 * Row operations: tab rendering, raw/rendered column translation and the
 * single-row edits (insert, delete, append) of kilo.cpp.
 */
module Rows {
  import opened Bytes

  /** KILO_TAB_STOP */
  const TAB_STOP: nat := 8

  /** The rendered column reached after drawing byte c at rendered column rx
      (one step of the loops in editorRowCxToRx and editorRowRxToCx). */
  function NextCol(c: Byte, rx: nat): (next: nat)
    ensures c != TAB ==> next == rx + 1
    ensures c == TAB ==> next % TAB_STOP == 0 && rx < next <= rx + TAB_STOP
  {
    if c == TAB then rx + (TAB_STOP - 1) - rx % TAB_STOP + 1 else rx + 1
  }

  /** A tab moves to the next multiple of the tab stop: never less than one
      column, never more than a full stop, and no stop is skipped. */
  lemma TabAdvancesToNextStop(rx: nat, m: nat)
    requires rx < m && m % TAB_STOP == 0
    ensures NextCol(TAB, rx) % TAB_STOP == 0
    ensures rx < NextCol(TAB, rx) <= rx + TAB_STOP
    ensures NextCol(TAB, rx) <= m
  {
  }

  /** editorRowCxToRx: the rendered column of raw column cx. */
  function CxToRx(chars: seq<Byte>, cx: nat): (rx: nat)
    requires cx <= |chars|
    ensures rx >= cx
    decreases cx
  {
    if cx == 0 then 0 else NextCol(chars[cx - 1], CxToRx(chars, cx - 1))
  }

  /** The rendered column of k in a prefix of the row is its column in the row. */
  lemma {:induction false} CxToRxTake(chars: seq<Byte>, n: nat, k: nat)
    requires k <= n <= |chars|
    ensures CxToRx(chars[..n], k) == CxToRx(chars, k)
    decreases k
  {
    if k > 0 {
      CxToRxTake(chars, n, k - 1);
    }
  }

  /** Raw columns map to strictly increasing rendered columns. */
  lemma {:induction false} CxToRxIncreasing(chars: seq<Byte>, i: nat, j: nat)
    requires i < j <= |chars|
    ensures CxToRx(chars, i) < CxToRx(chars, j)
    decreases j - i
  {
    if i + 1 < j {
      CxToRxIncreasing(chars, i, j - 1);
    }
  }

  lemma CxToRxMonotone(chars: seq<Byte>, i: nat, j: nat)
    requires i <= j <= |chars|
    ensures CxToRx(chars, i) <= CxToRx(chars, j)
  {
    if i < j {
      CxToRxIncreasing(chars, i, j);
    }
  }

  /** The rendered width equals the raw width exactly when every tab among the
      first k bytes sits one column before a tab stop (and so renders as a
      single space); in particular, a prefix without tabs has equal widths. */
  lemma {:induction false} CxToRxEqualsCx(chars: seq<Byte>, k: nat)
    requires k <= |chars|
    ensures CxToRx(chars, k) == k <==>
      (forall i :: 0 <= i < k && chars[i] == TAB ==> CxToRx(chars, i) % TAB_STOP == TAB_STOP - 1)
    decreases k
  {
    if k > 0 {
      CxToRxEqualsCx(chars, k - 1);
    }
  }

  /** Scan of editorRowRxToCx from raw column cx, whose rendered column is curRx. */
  function RxToCxFrom(chars: seq<Byte>, rx: nat, cx: nat, curRx: nat): (r: nat)
    requires cx <= |chars|
    requires curRx == CxToRx(chars, cx)
    requires forall k :: 0 < k <= cx ==> CxToRx(chars, k) <= rx
    ensures cx <= r <= |chars|
    ensures forall k :: 0 < k <= r ==> CxToRx(chars, k) <= rx
    ensures r < |chars| ==> rx < CxToRx(chars, r + 1)
    decreases |chars| - cx
  {
    if cx == |chars| then cx
    else
      var next := NextCol(chars[cx], curRx);
      if next > rx then cx else RxToCxFrom(chars, rx, cx + 1, next)
  }

  /** editorRowRxToCx: the raw column whose rendered cell holds rendered column rx,
      or the row length when rx lies at or past the end of the rendering. */
  function RxToCx(chars: seq<Byte>, rx: nat): (cx: nat)
    ensures cx <= |chars|
    ensures forall k :: 0 < k <= cx ==> CxToRx(chars, k) <= rx
    ensures cx < |chars| ==> rx < CxToRx(chars, cx + 1)
  {
    RxToCxFrom(chars, rx, 0, 0)
  }

  /** Translating a raw column to a rendered one and back is the identity. */
  lemma RxToCxInverse(chars: seq<Byte>, cx: nat)
    requires cx <= |chars|
    ensures RxToCx(chars, CxToRx(chars, cx)) == cx
  {
    var rx := CxToRx(chars, cx);
    var r := RxToCx(chars, rx);
    if r < cx {
      CxToRxMonotone(chars, r + 1, cx);
      assert false;
    } else if r > cx {
      assert CxToRx(chars, cx + 1) <= rx;
      assert false;
    }
  }

  /** A rendered column inside the rendering lies in the cell of the raw column
      RxToCx returns for it. */
  lemma RxToCxCell(chars: seq<Byte>, rx: nat)
    requires rx < CxToRx(chars, |chars|)
    ensures RxToCx(chars, rx) < |chars|
    ensures CxToRx(chars, RxToCx(chars, rx)) <= rx < CxToRx(chars, RxToCx(chars, rx) + 1)
  {
    var cx := RxToCx(chars, rx);
    if cx > 0 {
      assert CxToRx(chars, cx) <= rx;
    }
  }

  /** The spaces the inner loop of editorUpdateRow adds after a tab's first
      space, starting at rendered column idx, until the next tab stop. */
  function PadToStop(idx: nat): (r: seq<Byte>)
    ensures |r| == (if idx % TAB_STOP == 0 then 0 else TAB_STOP - idx % TAB_STOP)
    ensures forall i :: 0 <= i < |r| ==> r[i] == SPACE
    decreases if idx % TAB_STOP == 0 then 0 else TAB_STOP - idx % TAB_STOP
  {
    if idx % TAB_STOP == 0 then [] else [SPACE] + PadToStop(idx + 1)
  }

  /** What editorUpdateRow writes for byte c at rendered column idx. */
  function Expand(c: Byte, idx: nat): (r: seq<Byte>)
    ensures |r| == NextCol(c, idx) - idx
    ensures forall i :: 0 <= i < |r| ==> r[i] == (if c == TAB then SPACE else c)
  {
    if c == TAB then [SPACE] + PadToStop(idx + 1) else [c]
  }

  /** The render buffer editorUpdateRow builds from the raw bytes. */
  function Render(chars: seq<Byte>): (r: seq<Byte>)
    ensures |r| == CxToRx(chars, |chars|)
    decreases |chars|
  {
    if |chars| == 0 then []
    else
      var n := |chars| - 1;
      var prefix := Render(chars[..n]);
      CxToRxTake(chars, n, n);
      prefix + Expand(chars[n], |prefix|)
  }

  /** Every rendered cell of raw column j shows that byte, or a space for a tab. */
  lemma {:induction false} RenderCell(chars: seq<Byte>, j: nat, p: nat)
    requires j < |chars|
    requires CxToRx(chars, j) <= p < CxToRx(chars, j + 1)
    ensures p < |Render(chars)|
    ensures Render(chars)[p] == (if chars[j] == TAB then SPACE else chars[j])
    decreases |chars|
  {
    var n := |chars| - 1;
    var prefix := chars[..n];
    CxToRxMonotone(chars, j + 1, |chars|);
    if j == n {
      RenderLastCell(chars, p);
    } else {
      CxToRxTake(chars, n, j);
      CxToRxTake(chars, n, j + 1);
      RenderCell(prefix, j, p);
      RenderKeepsPrefix(chars, p);
    }
  }

  /** The rendering of a row is that of all but its last byte, followed by the
      expansion of the last byte. */
  lemma RenderSnoc(chars: seq<Byte>)
    requires |chars| > 0
    ensures var n := |chars| - 1;
      Render(chars) == Render(chars[..n]) + Expand(chars[n], CxToRx(chars, n))
  {
    var n := |chars| - 1;
    CxToRxTake(chars, n, n);
    assert |Render(chars[..n])| == CxToRx(chars, n);
  }

  /** Appending a byte leaves the existing rendered cells in place. */
  lemma RenderKeepsPrefix(chars: seq<Byte>, p: nat)
    requires |chars| > 0 && p < |Render(chars[..|chars| - 1])|
    ensures p < |Render(chars)| && Render(chars)[p] == Render(chars[..|chars| - 1])[p]
  {
    RenderSnoc(chars);
  }

  /** The cells of the last byte hold its expansion. */
  lemma RenderLastCell(chars: seq<Byte>, p: nat)
    requires |chars| > 0
    requires CxToRx(chars, |chars| - 1) <= p < CxToRx(chars, |chars|)
    ensures p < |Render(chars)|
    ensures Render(chars)[p] == (if chars[|chars| - 1] == TAB then SPACE else chars[|chars| - 1])
  {
    var n := |chars| - 1;
    RenderSnoc(chars);
    var head := Render(chars[..n]);
    var tail := Expand(chars[n], CxToRx(chars, n));
    assert |head| == CxToRx(chars, n) by {
      CxToRxTake(chars, n, n);
    }
    assert Render(chars)[p] == tail[p - |head|];
  }

  /** A rendered row holds no tab byte. */
  lemma {:induction false} RenderHasNoTab(chars: seq<Byte>)
    ensures forall p :: 0 <= p < |Render(chars)| ==> Render(chars)[p] != TAB
    decreases |chars|
  {
    if |chars| > 0 {
      RenderHasNoTab(chars[..|chars| - 1]);
    }
  }

  /** rsize >= size, with equality exactly when every tab renders as one space. */
  lemma RenderLength(chars: seq<Byte>)
    ensures |Render(chars)| >= |chars|
    ensures |Render(chars)| == |chars| <==>
      (forall i :: 0 <= i < |chars| && chars[i] == TAB ==> CxToRx(chars, i) % TAB_STOP == TAB_STOP - 1)
  {
    CxToRxEqualsCx(chars, |chars|);
  }

  /** A row without tabs renders as itself. */
  lemma {:induction false} RenderWithoutTabs(chars: seq<Byte>)
    requires forall i :: 0 <= i < |chars| ==> chars[i] != TAB
    ensures Render(chars) == chars
    decreases |chars|
  {
    if |chars| > 0 {
      var n := |chars| - 1;
      RenderWithoutTabs(chars[..n]);
      assert chars == chars[..n] + [chars[n]];
    }
  }

  /** Seven bytes and a tab: the tab renders as one space, so a row can hold a
      tab and still have rsize == size. */
  lemma TabAtLastColumnBeforeStop()
    ensures var chars := [97, 97, 97, 97, 97, 97, 97, TAB];
      TAB in chars && |Render(chars)| == |chars|
  {
    var chars: seq<Byte> := [97, 97, 97, 97, 97, 97, 97, TAB];
    assert CxToRx(chars, 7) == 7;
  }

  /** Appending bytes leaves the rendering of the existing bytes in place. */
  lemma {:induction false} RenderPrefix(a: seq<Byte>, b: seq<Byte>)
    ensures Render(a) <= Render(a + b)
    decreases |b|
  {
    if |b| > 0 {
      var c := a + b;
      var n := |c| - 1;
      assert c[..n] == a + b[..|b| - 1];
      RenderPrefix(a, b[..|b| - 1]);
      RenderSnoc(c);
    } else {
      assert a + b == a;
    }
  }

  /** A line (erow): the raw bytes. Its render buffer is derived from them, so
      it is regenerated by construction after every edit (editorUpdateRow). */
  datatype Row = Row(chars: seq<Byte>) {
    /** The render buffer (erow.render); rsize is its length. */
    function render(): seq<Byte>
    {
      Render(chars)
    }
  }

  /** Where editorRowInsertChar puts its byte: at, or the end when at is out of range. */
  function InsertPos(at: int, size: nat): (pos: nat)
    ensures pos <= size
    ensures 0 <= at <= size ==> pos == at
    ensures at < 0 || at > size ==> pos == size
  {
    if at < 0 || at > size then size else at
  }

  /** editorRowInsertChar */
  function RowInsertChar(row: Row, at: int, c: Byte): (r: Row)
    ensures |r.chars| == |row.chars| + 1
    ensures (at < 0 || at > |row.chars|) ==> r.chars == row.chars + [c]
    ensures 0 <= at <= |row.chars| ==>
      && r.chars[at] == c
      && (forall i :: 0 <= i < at ==> r.chars[i] == row.chars[i])
      && (forall i :: at < i < |r.chars| ==> r.chars[i] == row.chars[i - 1])
  {
    var pos := InsertPos(at, |row.chars|);
    Row(row.chars[..pos] + [c] + row.chars[pos..])
  }

  /** editorRowDelChar */
  function RowDelChar(row: Row, at: int): (r: Row)
    ensures (at < 0 || at >= |row.chars|) ==> r == row
    ensures 0 <= at < |row.chars| ==>
      && |r.chars| == |row.chars| - 1
      && (forall i :: 0 <= i < at ==> r.chars[i] == row.chars[i])
      && (forall i :: at <= i < |r.chars| ==> r.chars[i] == row.chars[i + 1])
  {
    if at < 0 || at >= |row.chars| then row
    else Row(row.chars[..at] + row.chars[at + 1..])
  }

  /** Inserting a byte at an in-range column and deleting at that column
      restores the row exactly. */
  lemma InsertThenDeleteChar(row: Row, at: int, c: Byte)
    requires 0 <= at <= |row.chars|
    ensures RowDelChar(RowInsertChar(row, at, c), at) == row
  {
    var r := RowDelChar(RowInsertChar(row, at, c), at);
    assert r.chars == row.chars;
  }

  /** editorRowAppendString */
  function RowAppendString(row: Row, s: seq<Byte>): (r: Row)
    ensures |r.chars| == |row.chars| + |s|
    ensures r.chars[..|row.chars|] == row.chars && r.chars[|row.chars|..] == s
    ensures row.render() <= r.render()
  {
    RenderPrefix(row.chars, s);
    Row(row.chars + s)
  }
}

=== FILE: session.dfy ===
/**
 * The main loop of kilo.cpp as a fold over keys: every turn redraws (which
 * scrolls) and then dispatches one key. Also worked examples of single key
 * presses and of the Ctrl-Q countdown.
 */
module Session {
  import opened Bytes
  import opened Rows
  import opened Editing
  import opened Terminal
  import opened Input
  import opened Output

  /** One turn of the loop: editorRefreshScreen (of which only the scroll
      affects the state) and then editorProcessKeypress. */
  function Turn(e: Editor, quitTimes: nat, key: Key): (s: Step)
    requires e.CursorOk()
    ensures s.editor.CursorOk()
  {
    ProcessKeypress(Scroll(e), quitTimes, key)
  }

  /** The state after a run of keys and the outcome of every key handled. */
  datatype Trace = Trace(editor: Editor, quitTimes: nat, outcomes: seq<Outcome>)

  predicate Ongoing(o: Outcome)
  {
    o.Continue? || o.QuitWarning?
  }

  /** The loop over keys. It stops at Exit, and at a save or a search, which
      take the following keys for their own prompt. */
  function Run(e: Editor, quitTimes: nat, keys: seq<Key>): (t: Trace)
    requires e.CursorOk()
    ensures t.editor.CursorOk()
    ensures |t.outcomes| <= |keys|
    decreases |keys|
  {
    if |keys| == 0 then Trace(e, quitTimes, [])
    else
      var s := Turn(e, quitTimes, keys[0]);
      if Ongoing(s.outcome) then
        var t := Run(s.editor, s.quitTimes, keys[1..]);
        Trace(t.editor, t.quitTimes, [s.outcome] + t.outcomes)
      else Trace(s.editor, s.quitTimes, [s.outcome])
  }

  /** Outcomes of a run over n keys: every outcome but the last lets the loop
      go on, and the run ends early only on one that does not. */
  predicate StopsOnlyAtEnd(os: seq<Outcome>, n: nat)
  {
    && (forall i :: 0 <= i < |os| - 1 ==> Ongoing(os[i]))
    && (|os| < n ==> |os| > 0 && !Ongoing(os[|os| - 1]))
  }

  lemma ConsOngoing(o: Outcome, os: seq<Outcome>, n: nat)
    requires Ongoing(o) && StopsOnlyAtEnd(os, n)
    ensures StopsOnlyAtEnd([o] + os, n + 1)
  {
    assert forall i :: 1 <= i < |os| + 1 ==> ([o] + os)[i] == os[i - 1];
  }

  /** The loop handles a key only while every earlier key left the editor
      running, and it stops early only after an Exit, a save or a search. */
  lemma {:induction false} RunStopsOnlyAtEnd(e: Editor, quitTimes: nat, keys: seq<Key>)
    requires e.CursorOk()
    ensures StopsOnlyAtEnd(Run(e, quitTimes, keys).outcomes, |keys|)
    decreases |keys|
  {
    if |keys| > 0 {
      var s := Turn(e, quitTimes, keys[0]);
      if Ongoing(s.outcome) {
        var t := Run(s.editor, s.quitTimes, keys[1..]);
        RunStopsOnlyAtEnd(s.editor, s.quitTimes, keys[1..]);
        ConsOngoing(s.outcome, t.outcomes, |keys| - 1);
      }
    }
  }

  /** A turn that lets the loop go on is followed by the rest of the run. */
  lemma RunCons(e: Editor, quitTimes: nat, key: Key, rest: seq<Key>)
    requires e.CursorOk()
    ensures var s := Turn(e, quitTimes, key);
      Ongoing(s.outcome) ==>
      Run(e, quitTimes, [key] + rest) ==
        var t := Run(s.editor, s.quitTimes, rest);
        Trace(t.editor, t.quitTimes, [s.outcome] + t.outcomes)
  {
    assert ([key] + rest)[1..] == rest;
  }

  /** Ctrl-Q with unsaved changes and presses left only warns and counts down. */
  lemma QuitPressWarns(e: Editor, q: nat)
    requires e.CursorOk() && e.dirty > 0 && q > 0
    ensures var s := Turn(e, q, Char(CTRL_Q));
      s.outcome == QuitWarning(q) && s.quitTimes == q - 1 && s.editor.dirty == e.dirty
  {
  }

  /** An arrow key re-arms the quit counter and leaves the document alone. */
  lemma ArrowRearmsQuit(e: Editor, q: nat, key: Key)
    requires e.CursorOk() && IsArrow(key)
    ensures var s := Turn(e, q, key);
      s.outcome == Continue && s.quitTimes == QUIT_TIMES && s.editor.dirty == e.dirty
  {
  }

  function Repeat(key: Key, n: nat): (ks: seq<Key>)
    ensures |ks| == n && forall i :: 0 <= i < n ==> ks[i] == key
  {
    if n == 0 then [] else [key] + Repeat(key, n - 1)
  }

  /** The warnings quit_times, quit_times - 1, ..., 1. */
  function Countdown(n: nat): (ws: seq<Outcome>)
    ensures |ws| == n && forall i :: 0 <= i < n ==> ws[i] == QuitWarning(n - i)
  {
    if n == 0 then [] else [QuitWarning(n)] + Countdown(n - 1)
  }

  /** With unsaved changes, Ctrl-Q pressed q + 1 times in a row first warns q
      times, counting down, and quits on the last press. */
  lemma {:induction false} QuitNeedsConfirmation(e: Editor, q: nat)
    requires e.CursorOk() && e.dirty > 0
    ensures Run(e, q, Repeat(Char(CTRL_Q), q + 1)).outcomes == Countdown(q) + [Exit]
    decreases q
  {
    var rest := Repeat(Char(CTRL_Q), q);
    assert Repeat(Char(CTRL_Q), q + 1) == [Char(CTRL_Q)] + rest;
    if q == 0 {
      LastQuitPressExits(e, rest);
    } else {
      var s := Turn(e, q, Char(CTRL_Q));
      QuitPressWarns(e, q);
      RunCons(e, q, Char(CTRL_Q), rest);
      QuitNeedsConfirmation(s.editor, q - 1);
      assert Countdown(q) == [QuitWarning(q)] + Countdown(q - 1);
    }
  }

  /** Ctrl-Q with no presses left quits, whatever follows. */
  lemma LastQuitPressExits(e: Editor, rest: seq<Key>)
    requires e.CursorOk()
    ensures Run(e, 0, [Char(CTRL_Q)] + rest).outcomes == [Exit]
  {
  }

  /** With unsaved changes a fresh counter takes four presses to quit. */
  lemma DirtyQuitTakesFourPresses(e: Editor)
    requires e.CursorOk() && e.dirty > 0
    ensures Run(e, QUIT_TIMES, Repeat(Char(CTRL_Q), 4)).outcomes ==
      [QuitWarning(3), QuitWarning(2), QuitWarning(1), Exit]
  {
    QuitNeedsConfirmation(e, QUIT_TIMES);
    assert Countdown(3) == [QuitWarning(3)] + Countdown(2);
    assert Countdown(2) == [QuitWarning(2)] + Countdown(1);
    assert Countdown(1) == [QuitWarning(1)] + Countdown(0);
  }

  /** Without unsaved changes the first Ctrl-Q quits. */
  lemma CleanQuitIsImmediate(e: Editor, q: nat, rest: seq<Key>)
    requires e.CursorOk() && e.dirty == 0
    ensures Run(e, q, [Char(CTRL_Q)] + rest).outcomes == [Exit]
  {
  }

  /** A key other than Ctrl-Q between Ctrl-Q presses re-arms the counter:
      whatever is left of it, after an arrow key Ctrl-Q with unsaved changes
      warns with the full count again instead of quitting. */
  lemma OtherKeyRearmsQuit(e: Editor, q: nat)
    requires e.CursorOk() && e.dirty > 0
    ensures Run(e, q, [ArrowUp, Char(CTRL_Q)]).outcomes == [Continue, QuitWarning(QUIT_TIMES)]
  {
    var s := Turn(e, q, ArrowUp);
    ArrowRearmsQuit(e, q, ArrowUp);
    QuitPressWarns(s.editor, s.quitTimes);
    RunCons(s.editor, s.quitTimes, Char(CTRL_Q), []);
    assert [Char(CTRL_Q)] + [] == [Char(CTRL_Q)];
    RunCons(e, q, ArrowUp, [Char(CTRL_Q)]);
    assert [ArrowUp] + [Char(CTRL_Q)] == [ArrowUp, Char(CTRL_Q)];
  }

  /** An empty document with the cursor at the top. */
  function Empty(): (e: Editor)
    ensures e.CursorOk() && |e.rows| == 0
  {
    Editor(0, 0, 0, 0, 0, 24, 80, [], 0)
  }

  /** Typing a text byte at the end of the only row appends it there. */
  lemma TypeAtEndOfRow(e: Editor, q: nat, c: Byte)
    requires e.CursorOk() && !IsCommandByte(c)
    requires |e.rows| == 1 && e.cy == 0 && e.cx == |e.rows[0].chars|
    ensures var s := Turn(e, q, Char(c));
      && s.editor.rows == [Row(e.rows[0].chars + [c])]
      && s.editor.cy == 0 && s.editor.cx == e.cx + 1
      && s.editor.dirty > e.dirty && s.outcome == Continue
  {
    var s := Turn(e, q, Char(c));
    assert s.editor == InsertChar(Scroll(e), c);
    assert s.editor.rows[0].chars == e.rows[0].chars + [c];
  }

  /** Typing a text byte into an empty document creates its first row, holding
      just that byte, with the cursor after it. */
  lemma TypeIntoEmptyDocument(q: nat, c: Byte)
    requires !IsCommandByte(c)
    ensures var s := Turn(Empty(), q, Char(c));
      && s.editor.rows == [Row([c])]
      && s.editor.cy == 0 && s.editor.cx == 1
      && s.editor.dirty > 0 && s.outcome == Continue
  {
    var s := Turn(Empty(), q, Char(c));
    assert s.editor == InsertChar(Scroll(Empty()), c);
  }

  /** The document "abc", "def". */
  function AbcDef(cx: nat, cy: nat): (e: Editor)
  {
    Editor(cx, cy, 0, 0, 0, 24, 80, [Row([0x61, 0x62, 0x63]), Row([0x64, 0x65, 0x66])], 0)
  }

  /** Backspace at the start of "def" joins it onto "abc", with the cursor at
      the join point. */
  lemma BackspaceJoinsRows()
    ensures var t := Run(AbcDef(0, 1), QUIT_TIMES, [Char(BACKSPACE)]);
      t.editor.rows == [Row([0x61, 0x62, 0x63, 0x64, 0x65, 0x66])] && t.editor.cy == 0 && t.editor.cx == 3
  {
    var e := Scroll(AbcDef(0, 1));
    var s := Turn(AbcDef(0, 1), QUIT_TIMES, Char(BACKSPACE));
    assert s.editor == DelChar(e);
    assert s.editor.rows[0].chars == [0x61, 0x62, 0x63] + [0x64, 0x65, 0x66];
    assert |s.editor.rows| == 1;
    assert s.editor.rows[0] == Row([0x61, 0x62, 0x63, 0x64, 0x65, 0x66]);
    assert s.editor.rows == [Row([0x61, 0x62, 0x63, 0x64, 0x65, 0x66])];
  }

  /** Delete at the end of "abc" moves right onto the start of "def" and joins
      the rows there, so the cursor stays at (0, 3). */
  lemma DeleteAtEndOfRowJoinsRows()
    ensures var t := Run(AbcDef(3, 0), QUIT_TIMES, [DelKey]);
      t.editor.rows == [Row([0x61, 0x62, 0x63, 0x64, 0x65, 0x66])] && t.editor.cy == 0 && t.editor.cx == 3
  {
    var e := Scroll(AbcDef(3, 0));
    var moved := MoveCursor(e, ArrowRight);
    assert moved.cy == 1 && moved.cx == 0;
    var s := Turn(AbcDef(3, 0), QUIT_TIMES, DelKey);
    assert s.editor == DelChar(moved);
    assert s.editor.rows[0].chars == [0x61, 0x62, 0x63] + [0x64, 0x65, 0x66];
    assert |s.editor.rows| == 1;
    assert s.editor.rows[0] == Row([0x61, 0x62, 0x63, 0x64, 0x65, 0x66]);
    assert s.editor.rows == [Row([0x61, 0x62, 0x63, 0x64, 0x65, 0x66])];
  }

  /** "a<TAB>b" renders as "a", seven spaces, "b"; raw column 2 is rendered
      column 8. */
  lemma TabRendersToNextStop()
    ensures Render([0x61, TAB, 0x62]) == [0x61] + Spaces(7) + [0x62]
    ensures CxToRx([0x61, TAB, 0x62], 2) == 8
  {
    var chars: seq<Byte> := [0x61, TAB, 0x62];
    assert chars[..2] == [0x61, TAB];
    assert chars[..2][..1] == [0x61];
    assert CxToRx(chars, 1) == 1;
    assert CxToRx(chars, 2) == 8;
    var r := Render(chars);
    assert |r| == 9;
    assert Spaces(7) == [SPACE, SPACE, SPACE, SPACE, SPACE, SPACE, SPACE];
    forall p | 0 <= p < 9
      ensures r[p] == ([0x61] + Spaces(7) + [0x62])[p]
    {
      var j := if p == 0 then 0 else if p < 8 then 1 else 2;
      RenderCell(chars, j, p);
    }
  }
}

=== FILE: terminal.dfy ===
/**
 * The key decoder of kilo.cpp (editorReadKey), as a pure function from the
 * bytes the terminal will deliver to one logical key and the number of bytes
 * it consumes.
 */
module Terminal {
  import opened Bytes

  const LEFT_BRACKET: Byte := 0x5B  // '['
  const LETTER_O: Byte := 0x4F      // 'O'
  const DIGIT_0: Byte := 0x30
  const DIGIT_9: Byte := 0x39

  /** A logical key: a plain byte, or one of the editorKey codes from 1000 up. */
  datatype Key =
    | Char(b: Byte)
    | ArrowLeft | ArrowRight | ArrowUp | ArrowDown
    | DelKey | HomeKey | EndKey | PageUp | PageDown

  /** The escape sequences the decoder recognises, with the key each one means. */
  const EscapeSequences: map<seq<Byte>, Key> := map[
    [ESC, LEFT_BRACKET, 0x41] := ArrowUp,     // ESC [ A
    [ESC, LEFT_BRACKET, 0x42] := ArrowDown,   // ESC [ B
    [ESC, LEFT_BRACKET, 0x43] := ArrowRight,  // ESC [ C
    [ESC, LEFT_BRACKET, 0x44] := ArrowLeft,   // ESC [ D
    [ESC, LEFT_BRACKET, 0x48] := HomeKey,     // ESC [ H
    [ESC, LEFT_BRACKET, 0x46] := EndKey,      // ESC [ F
    [ESC, LETTER_O, 0x48] := HomeKey,         // ESC O H
    [ESC, LETTER_O, 0x46] := EndKey,          // ESC O F
    [ESC, LEFT_BRACKET, 0x31, TILDE] := HomeKey,   // ESC [ 1 ~
    [ESC, LEFT_BRACKET, 0x33, TILDE] := DelKey,    // ESC [ 3 ~
    [ESC, LEFT_BRACKET, 0x34, TILDE] := EndKey,    // ESC [ 4 ~
    [ESC, LEFT_BRACKET, 0x35, TILDE] := PageUp,    // ESC [ 5 ~
    [ESC, LEFT_BRACKET, 0x36, TILDE] := PageDown,  // ESC [ 6 ~
    [ESC, LEFT_BRACKET, 0x37, TILDE] := HomeKey,   // ESC [ 7 ~
    [ESC, LEFT_BRACKET, 0x38, TILDE] := EndKey     // ESC [ 8 ~
  ]

  /** One decoded key and the number of bytes read to produce it. */
  datatype Decoded = Decoded(key: Key, used: nat)

  /** The key named by the byte after ESC [ (a letter). */
  function BracketLetter(b: Byte): (r: Option<Key>)
    ensures r.Some? <==> [ESC, LEFT_BRACKET, b] in EscapeSequences
    ensures r.Some? ==> r.value == EscapeSequences[[ESC, LEFT_BRACKET, b]]
  {
    if b == 0x41 then Some(ArrowUp)
    else if b == 0x42 then Some(ArrowDown)
    else if b == 0x43 then Some(ArrowRight)
    else if b == 0x44 then Some(ArrowLeft)
    else if b == 0x48 then Some(HomeKey)
    else if b == 0x46 then Some(EndKey)
    else None
  }

  /** The key named by the digit in ESC [ digit ~. */
  function TildeDigit(d: Byte): (r: Option<Key>)
    ensures r.Some? <==> [ESC, LEFT_BRACKET, d, TILDE] in EscapeSequences
    ensures r.Some? ==> r.value == EscapeSequences[[ESC, LEFT_BRACKET, d, TILDE]]
  {
    if d == 0x31 || d == 0x37 then Some(HomeKey)
    else if d == 0x33 then Some(DelKey)
    else if d == 0x34 || d == 0x38 then Some(EndKey)
    else if d == 0x35 then Some(PageUp)
    else if d == 0x36 then Some(PageDown)
    else None
  }

  /** The key named by the byte after ESC O. */
  function OLetter(b: Byte): (r: Option<Key>)
    ensures r.Some? <==> [ESC, LETTER_O, b] in EscapeSequences
    ensures r.Some? ==> r.value == EscapeSequences[[ESC, LETTER_O, b]]
  {
    if b == 0x48 then Some(HomeKey)
    else if b == 0x46 then Some(EndKey)
    else None
  }

  /** editorReadKey over the bytes the terminal will deliver. None when there is
      no byte at all (the source keeps waiting); a read that runs out inside an
      escape sequence yields a bare ESC. */
  function ReadKey(input: seq<Byte>): (r: Option<Decoded>)
    ensures r.None? <==> |input| == 0
    ensures r.Some? ==> 1 <= r.value.used <= 4 && r.value.used <= |input|
    ensures r.Some? && input[0] != ESC ==> r.value == Decoded(Char(input[0]), 1)
    ensures r.Some? && input[0] == ESC ==>
      r.value.key == Char(ESC) ||
      (input[..r.value.used] in EscapeSequences && EscapeSequences[input[..r.value.used]] == r.value.key)
    ensures r.Some? && input[0] == ESC && |input| < 3 ==> r.value == Decoded(Char(ESC), |input|)
    ensures r.Some? && input[0] == ESC && |input| >= 3 ==>
      r.value.used == (if input[1] == LEFT_BRACKET && DIGIT_0 <= input[2] <= DIGIT_9 && |input| >= 4 then 4 else 3)
  {
    if |input| == 0 then None
    else if input[0] != ESC then Some(Decoded(Char(input[0]), 1))
    else if |input| < 3 then Some(Decoded(Char(ESC), |input|))
    else
      var s0, s1 := input[1], input[2];
      if s0 == LEFT_BRACKET then
        if DIGIT_0 <= s1 <= DIGIT_9 then
          if |input| < 4 then Some(Decoded(Char(ESC), 3))
          else if input[3] == TILDE && TildeDigit(s1).Some? then
            assert input[..4] == [ESC, LEFT_BRACKET, s1, TILDE];
            Some(Decoded(TildeDigit(s1).value, 4))
          else Some(Decoded(Char(ESC), 4))
        else if BracketLetter(s1).Some? then
          assert input[..3] == [ESC, LEFT_BRACKET, s1];
          Some(Decoded(BracketLetter(s1).value, 3))
        else Some(Decoded(Char(ESC), 3))
      else if s0 == LETTER_O && OLetter(s1).Some? then
        assert input[..3] == [ESC, LETTER_O, s1];
        Some(Decoded(OLetter(s1).value, 3))
      else Some(Decoded(Char(ESC), 3))
  }

  /** Every recognised escape sequence decodes to its key and consumes exactly
      its own bytes, whatever follows it. */
  lemma EscapeSequenceDecodes(s: seq<Byte>, rest: seq<Byte>)
    requires s in EscapeSequences
    ensures ReadKey(s + rest) == Some(Decoded(EscapeSequences[s], |s|))
  {
    var input := s + rest;
    assert input[..|s|] == s;
    assert |s| == 3 || |s| == 4;
    if |s| == 3 {
      assert input[..3] == s;
    } else {
      assert input[..4] == s;
    }
  }

  /** Input that starts with ESC but with none of the recognised sequences
      decodes as a bare ESC. */
  lemma UnrecognisedIsBareEsc(input: seq<Byte>)
    requires |input| > 0 && input[0] == ESC
    requires forall n :: 0 <= n <= |input| ==> input[..n] !in EscapeSequences
    ensures ReadKey(input).Some? && ReadKey(input).value.key == Char(ESC)
  {
    var r := ReadKey(input);
    assert input[..r.value.used] !in EscapeSequences;
  }

  /** A canonical byte encoding of each key (what a typical terminal sends). */
  function Encode(k: Key): (s: seq<Byte>)
  {
    match k
    case Char(b) => [b]
    case ArrowUp => [ESC, LEFT_BRACKET, 0x41]
    case ArrowDown => [ESC, LEFT_BRACKET, 0x42]
    case ArrowRight => [ESC, LEFT_BRACKET, 0x43]
    case ArrowLeft => [ESC, LEFT_BRACKET, 0x44]
    case HomeKey => [ESC, LEFT_BRACKET, 0x48]
    case EndKey => [ESC, LEFT_BRACKET, 0x46]
    case DelKey => [ESC, LEFT_BRACKET, 0x33, TILDE]
    case PageUp => [ESC, LEFT_BRACKET, 0x35, TILDE]
    case PageDown => [ESC, LEFT_BRACKET, 0x36, TILDE]
  }

  /** Decoding the encoding of a key gives the key back and consumes exactly its
      bytes, so the next key's framing is kept. A lone ESC keeps this only at the
      end of the input: any byte after it is read as part of a sequence. */
  lemma ReadKeyEncode(k: Key, rest: seq<Byte>)
    requires k == Char(ESC) ==> rest == []
    ensures ReadKey(Encode(k) + rest) == Some(Decoded(k, |Encode(k)|))
  {
    if !k.Char? {
      EscapeSequenceDecodes(Encode(k), rest);
    } else {
      assert (Encode(k) + rest)[0] == k.b;
    }
  }

  /** An ESC followed by any byte pair is read as a three-byte unit, so a lone
      ESC key typed before other keys swallows them. */
  lemma EscSwallowsFollowingBytes(a: Byte, b: Byte)
    requires a != LEFT_BRACKET && a != LETTER_O
    ensures ReadKey([ESC, a, b]) == Some(Decoded(Char(ESC), 3))
  {
  }
}
